=== FILE: README.md ===
# A doctor/patient portal, modelled in Dafny

The repository is a hackathon portal where doctors and patients sign in.
A doctor reads patient records, writes appointment notes and asks for an
"AI" summary of a patient's history. The repository ships two backend
revisions, each a Cloudflare Worker on a D1 (SQLite) database:

- **The token revision** (`backend/src/worker.ts`). The login sets a
  `demo-token-<userId>-<role>` cookie, and an auth middleware splits it
  again on `-`. Passwords are stored as `btoa(password + "salt")`.
  Request bodies are checked by zod schemas. The AI summary is generated
  by Workers AI.
- **The session revision** (`doctorai-connect/backend/src/worker.js`).
  The login sets a `session` cookie holding the base64 of the
  JSON-serialised session claims. Handlers decode that cookie to
  authorise requests. The AI summary and the chat replies are canned
  texts computed from the database.

Two frontend pieces are also modelled: the token revision's router
(`frontend/src/App.jsx`), which gates the two dashboards by role, and the
session revision's sign-up form validator (`pages/Signup.jsx`).

## How the model is built

Everything is a pure function over immutable data.

- A D1 table is a sequence of rows in rowid order. `.first()` returns the
  first matching row. An `ORDER BY` is a sort under SQLite's BINARY text
  order (`Tables.TextLe`).
- React Router v6 matches a `<Route>` path without regard to case and
  accepts trailing slashes (`AppRoutes.Matches`).
- JavaScript's library semantics are written out where the code depends
  on them:
  - `parseInt`: whitespace, sign, `0x` prefix, the longest digit prefix,
    and `NaN`.
  - `String.split` and `join`.
  - `btoa` and the forgiving-base64 `atob`, from section 4 of RFC 4648
    and the WHATWG forgiving-base64 decode.
  - `JSON.stringify` escaping.
  - Truthiness.
- An HTTP answer is a `Reply` holding a status and an error text or a
  body. Hono turns an uncaught exception into 500 `Internal Server Error`.
- What cannot be seen is a parameter:
  - the Workers AI reply;
  - the id SQLite assigns to an inserted row, in both revisions;
  - the result of `Number(param)`;
  - zod's e-mail regular expression.

| file | module | models |
|---|---|---|
| optional.dfy | `Optional` | `Option` with failure propagation |
| strings.dfy | `Strings` | split/join, decimal text, prefix/substring search, Latin-1 lower-casing |
| jsvalues.dfy | `JsValues` | `parseInt`, `Number` results, the JSON value type, truthiness |
| base64.dfy | `Base64` | `btoa`/`atob` on Latin-1 text |
| json.dfy | `JsonText` | `JSON.stringify` and `JSON.parse` of strings and integers |
| session_codec.dfy | `SessionCodec` | `encodeSession`/`decodeSession`/`requireSession`/`isDoctor` |
| tables.dfy | `Tables` | rows, `.first()` lookups, `ORDER BY date`/`ORDER BY id` |
| http.dfy | `Http` | the status/body reply |
| token_worker.dfy | `TokenWorker` | backend/src/worker.ts |
| session_worker.dfy | `SessionWorker` | doctorai-connect/backend/src/worker.js, except chat |
| visit_summary.dfy | `VisitSummary` | the canned AI summary's fields |
| chat.dfy | `Chat` | POST /api/chat |
| signup.dfy | `Signup` | the sign-up form's submit handler |
| app_routes.dfy | `AppRoutes` | `ProtectedRoute` and the route table |

## Model

| member | source | states |
|---|---|---|
| TokenWorker.TokenRoundTrip | backend/src/worker.ts:72-118 | the middleware reads back the user id and role of the login's token exactly when the id is non-negative and the role holds no `-`; otherwise the token is refused |
| TokenWorker.TokenShapeAccepted | backend/src/worker.ts:112-118 | any token `demo-token-X-R` with `-`-free X and R passes, with user id `parseInt(X)` and role R |
| TokenWorker.AcceptedTokenShape | backend/src/worker.ts:112-118 | conversely, every accepted token has that shape: the middleware accepts nothing else |
| TokenWorker.ForgedToken | backend/src/worker.ts:112-118 | a token whose id part does not begin like a number is still accepted, with a `NaN` user id and whatever role it names |
| TokenWorker.AuthMiddleware | backend/src/worker.ts:100-120 | exactly the four public paths pass untouched; otherwise a missing or empty token is 401 "Unauthorized", a token the parser refuses is 401 "Invalid token", and every token the parser accepts authenticates with exactly its parsed payload |
| TokenWorker.HashPassword | backend/src/worker.ts:138-140 | hashing succeeds exactly for Latin-1 passwords, because `btoa` throws on anything else |
| TokenWorker.HashThenVerify | backend/src/worker.ts:138-143 | a password verifies against its own hash |
| TokenWorker.HashInjective | backend/src/worker.ts:138-143 | two passwords with the same hash are equal, so no other password verifies |
| TokenWorker.HashReveals | backend/src/worker.ts:138-140 | the hash is not one-way: `atob` of it gives back the password with `salt` appended |
| TokenWorker.UserByEmail | backend/src/worker.ts:66-67 | the user found has that e-mail, and none is found only when no user has it |
| TokenWorker.Login | backend/src/worker.ts:61-91 | a body the schema refuses is 400; every failure is that 400 or 401 "Invalid credentials"; success happens exactly when the first user with the e-mail has the password's hash, and returns that user and the cookie `demo-token-<id>-<role>` |
| TokenWorker.NoAccountEnumeration | backend/src/worker.ts:69-70 | for a Latin-1 password, an unknown e-mail and a wrong password for a known one get the same 401 reply |
| TokenWorker.EncodingRevealsAccount | backend/src/worker.ts:61-91 | as written, a password outside Latin-1 gets 401 for an unknown e-mail but 400 for a known one, because only the known e-mail reaches the hashing, whose `btoa` throws into the `catch` |
| TokenWorker.LoginUniform | backend/src/worker.ts:61-91 | with a hashing failure counted as a wrong password, the only 400 left is the schema's; it succeeds exactly when `Login` does, with the same reply, and differs from it only where `Login` answers the hashing 400 |
| TokenWorker.NoAccountEnumerationUniform | backend/src/worker.ts:69-70 | with that correction an unknown e-mail and a wrong password get the same 401 for every password, Latin-1 or not |
| TokenWorker.LoginTokenAuthenticates | backend/src/worker.ts:72-118 | the token a successful login sets passes the middleware as that user and role when the id is non-negative and the role has no `-`, and is refused as invalid otherwise |
| TokenWorker.PatientRecordById | backend/src/worker.ts:197-205 | a record found is a patient row with the requested id, joined with its user's e-mail; with no patient row of that id none is found; with patient ids unique, a patient row of that id whose user exists is found |
| TokenWorker.AllPatientRecords | backend/src/worker.ts:172-178 | each record joins a listed patient with its user's e-mail, and every patient whose user exists appears |
| TokenWorker.Me | backend/src/worker.ts:148-165 | 401 without a payload; with one, success exactly when some user has the payload's id, returning that user's view, and 404 "User not found" otherwise |
| TokenWorker.ListPatients | backend/src/worker.ts:168-180 | doctors, and only doctors, get 200 with every patient record of the join; everyone else gets 401 |
| TokenWorker.GetPatient | backend/src/worker.ts:183-210 | 401 exactly when there is no payload or a patient asks for a record other than their own; otherwise success exactly when the joined record exists, answering that record, and 404 "Patient not found" when it does not |
| TokenWorker.PatientHistory | backend/src/worker.ts:229-236 | the patient's appointments whose doctor exists, newest date first, each as many times as the table holds it, and no other rows |
| TokenWorker.GetAppointments | backend/src/worker.ts:213-239 | 401 exactly under the same ownership rule; otherwise 200 with the patient's history: their appointments whose doctor exists, newest first |
| TokenWorker.RowOf | backend/src/worker.ts:257-264 | the inserted row takes the patient, doctor and date from the body, the optional texts when given and empty text otherwise |
| TokenWorker.CreateAppointment | backend/src/worker.ts:242-275 | non-doctors get 401 and a body the schema refuses 400, both leaving the table unchanged; a doctor with a body the schema accepts gets 201 with the database's new row id and the parsed fields, and exactly that one row is appended |
| TokenWorker.CreateTakesDoctorFromBody | backend/src/worker.ts:257-259 | the appointment's doctor is the `doctor_id` of the body, whichever doctor is signed in |
| TokenWorker.MergeFields | backend/src/worker.ts:289-298 | each `COALESCE` takes the patch's value when given and keeps the stored one otherwise; an empty patch changes nothing and merging twice equals merging once |
| TokenWorker.UpdateRows | backend/src/worker.ts:289-308 | the table keeps its length; the rows with the given id become their merge and every other row is unchanged |
| TokenWorker.UpdateAppointment | backend/src/worker.ts:278-314 | non-doctors get 401 and a doctor's patch the schema refuses 400, leaving the table unchanged; otherwise "Appointment updated" with the matching rows merged, an absent field keeping the stored column |
| TokenWorker.UpdateMissingRow | backend/src/worker.ts:297-310 | updating an id no row has changes nothing and still reports success |
| TokenWorker.UpdateAppointmentAsWritten | backend/src/worker.ts:278-314 | as written, an absent patch field is bound as `undefined` and refused, so a doctor's patch succeeds only when it carries every column, and then as the corrected route does |
| TokenWorker.PartialPatchAsWrittenFails | backend/src/worker.ts:300-308 | a patch naming only the notes is 400 as written, while the corrected route merges it and keeps the other columns |
| TokenWorker.AiSummary | backend/src/worker.ts:317-410 | 401 exactly when there is no payload or a patient asks about another patient; 404 exactly when the request is permitted and the patient record is missing; success exactly when permitted, the record exists and the AI answers, with the AI's text and the patient's history newest first; any other failure is 500 |
| TokenWorker.MapRows | backend/src/worker.ts:353-359 | `map` yields rows exactly when the value is an array; D1's result object has no `map` |
| TokenWorker.AiSummaryAsWritten | backend/src/worker.ts:317-410 | as written, the route never succeeds |
| TokenWorker.SummaryAsWrittenFails | backend/src/worker.ts:353-359 | where the corrected route answers with a summary, the as-written one answers 500; mapping over `results` gives the patient's history |
| TokenWorker.PatientConfined | backend/src/worker.ts:189-195 | all three patient routes answer 401 to a patient asking for an id other than their own patient row |
| TokenWorker.NonPatientUnrestricted | backend/src/worker.ts:189-197 | any role other than `patient`, even a forged one, reads the appointments of any id and every existing patient record |
| JsValues.ParseIntDecimal | backend/src/worker.ts:116 | `parseInt` of an integer's decimal text gives back the integer |
| JsValues.ParseIntNoDigit | backend/src/worker.ts:116 | text that starts with neither space, sign nor digit parses to `NaN` |
| JsValues.TrimStart | backend/src/worker.ts:116 | `parseInt` skips a prefix made only of white space and stops at the first other character |
| JsValues.DigitRun | backend/src/worker.ts:116 | the longest prefix of characters that are digits in the radix |
| Strings.Split | backend/src/worker.ts:112 | `split` gives at least one part, no part contains the separator, and joining the parts gives back the text |
| Strings.SplitJoin | backend/src/worker.ts:112 | splitting the join of separator-free parts gives back the parts |
| Strings.SplitFree | backend/src/worker.ts:112 | text without the separator splits into itself alone |
| Base64.BtoaRoundTrip | doctorai-connect/backend/src/worker.js:12-13 | `atob(btoa(s)) == s` for Latin-1 text |
| Base64.BtoaInjective | doctorai-connect/backend/src/worker.js:12-13 | different texts encode differently |
| Base64.EncodeBytes | doctorai-connect/backend/src/worker.js:12 | the padded encoding always has a multiple of four characters |
| Base64.Atob | doctorai-connect/backend/src/worker.js:13 | a successful decode is a binary string, every character below U+0100 |
| JsonText.StringRoundTrip | doctorai-connect/backend/src/worker.js:12-13 | parsing the JSON text of a string gives back the string and stops after the closing quote |
| JsonText.NumberRoundTrip | doctorai-connect/backend/src/worker.js:12-13 | parsing the JSON text of an integer gives back the integer |
| JsonText.NullOrIntRoundTrip | doctorai-connect/backend/src/worker.js:12-13 | the same for `null` or an integer |
| SessionCodec.SerializeRoundTrip | doctorai-connect/backend/src/worker.js:12-13 | `JSON.parse(JSON.stringify(claims))` gives back the claims |
| SessionCodec.SerializeLatin1 | doctorai-connect/backend/src/worker.js:12 | the JSON text of Latin-1 claims is Latin-1, so `btoa` accepts it |
| SessionCodec.EncodeSession | doctorai-connect/backend/src/worker.js:12 | a cookie is produced exactly when every text of the claims is Latin-1 |
| SessionCodec.DecodeSession | doctorai-connect/backend/src/worker.js:13 | no cookie or an empty cookie decodes to no session |
| SessionCodec.SessionRoundTrip | doctorai-connect/backend/src/worker.js:12-13 | the cookie written for encodable claims is non-empty and decodes to exactly those claims |
| SessionCodec.EncodeSessionInjective | doctorai-connect/backend/src/worker.js:12 | different sessions get different cookies |
| SessionCodec.RequireSession | doctorai-connect/backend/src/worker.js:14 | a session exactly when the cookie decodes, carrying the decoded claims, and otherwise the 401 response object |
| SessionCodec.IsDoctor | doctorai-connect/backend/src/worker.js:15 | the claims exactly when the cookie decodes to a session whose role is `doctor` |
| SessionCodec.ForgedDoctorCookie | doctorai-connect/backend/src/worker.js:12-15 | the cookie is unsigned: any Latin-1 claims with role `doctor` make a cookie that `isDoctor` accepts |
| SessionWorker.BodyOrEmpty | doctorai-connect/backend/src/worker.js:33 | a body that is not JSON reads as the empty object |
| SessionWorker.AccountByEmail | doctorai-connect/backend/src/worker.js:35 | the account found has the bound e-mail, and none is found only when no account has it |
| SessionWorker.ClaimsFor | doctorai-connect/backend/src/worker.js:38-46 | a patient's claims carry the id of their patient row, if any, and no doctor id; every other role carries the id of their doctor row, if any, and no patient id |
| SessionWorker.Login | doctorai-connect/backend/src/worker.js:32-54 | a `null` body is 500; a body, JSON or not, without a truthy e-mail and password is 400 "email and password required"; an e-mail `bind` refuses is 500; 401 exactly when both are given, the e-mail binds and no account has that e-mail and password; success exactly when one has and its claims are Latin-1, and the cookie decodes to those claims |
| SessionWorker.NoAccountEnumeration | doctorai-connect/backend/src/worker.js:36 | an unknown e-mail and a wrong password get the same 401 reply |
| SessionWorker.LoginCookieAuthenticates | doctorai-connect/backend/src/worker.js:32-54 | the cookie of a successful login is accepted by `requireSession` as that user, and by `isDoctor` exactly for a doctor |
| SessionWorker.Infos | doctorai-connect/backend/src/worker.js:65 | one id, name and birth date per patient row, in the same order |
| SessionWorker.InfosMembers | doctorai-connect/backend/src/worker.js:65 | every row's id, name and birth date are listed, and nothing that is not some row's |
| SessionWorker.InfosMultiset | doctorai-connect/backend/src/worker.js:59-70 | reordering the rows reorders the projected list: each projection occurs as many times as before |
| SessionWorker.ListPatients | doctorai-connect/backend/src/worker.js:59-70 | every patient, each row exactly as many times as the table holds it, ordered by id, whoever asks |
| SessionWorker.ListIgnoresSession | doctorai-connect/backend/src/worker.js:59-70 | the list is the same with any cookie or none |
| SessionWorker.PatientByNumber | doctorai-connect/backend/src/worker.js:78 | the patient found has an id equal to the number, and none is found only when no patient has it |
| SessionWorker.GetPatient | doctorai-connect/backend/src/worker.js:72-86 | a NaN id is 400; success exactly when some patient has the id, with that patient's appointments whose doctor exists, newest first, each as many times as the table holds it; a number no patient has is 404 |
| SessionWorker.GetPatientIgnoresSession | doctorai-connect/backend/src/worker.js:72-86 | the patient read does not depend on the cookie |
| SessionWorker.OrEmpty | doctorai-connect/backend/src/worker.js:95 | a truthy value is kept and anything else becomes the empty string |
| SessionWorker.CreateAppointment | doctorai-connect/backend/src/worker.js:88-97 | a non-doctor is 403; a doctor's `null` body is 500 and a body without a truthy patient id or date 400; a value `bind` refuses (an object, or an array that is not bytes) is 500; success exactly otherwise, inserting one row with the session's doctor id, the optional texts or empty text, and returning the new id |
| SessionWorker.DoctorFromSession | doctorai-connect/backend/src/worker.js:95 | a `doctor_id` in the body changes nothing; the stored doctor is the session's |
| SessionWorker.ForgedDoctorCreates | doctorai-connect/backend/src/worker.js:88-97 | a forged doctor cookie with a bindable body creates appointments under the doctor id it names |
| SessionWorker.History | doctorai-connect/backend/src/worker.js:108-111 | the patient's appointments, oldest date first, each exactly as often as in the table |
| SessionWorker.AiSummary | doctorai-connect/backend/src/worker.js:99-153 | a NaN id is 400 and a patient asking about another patient 403; a permitted number no patient has is 404; success exactly when neither refusal holds and some patient has the id, with the summary of that patient's history |
| SessionWorker.SummaryWithoutSession | doctorai-connect/backend/src/worker.js:100 | a request with no session gets exactly what a doctor gets, never 401 |
| SessionWorker.GuardedSummary | doctorai-connect/backend/src/worker.js:100-102 | with the evident guard, a request without a session is 401 and a signed-in one is answered as before |
| SessionWorker.GuardedSummaryNeedsSession | doctorai-connect/backend/src/worker.js:100-102 | behind that guard a summary goes only to a signed-in user, and a patient gets only their own |
| SessionWorker.PatientReadsOwnSummary | doctorai-connect/backend/src/worker.js:102 | a signed-in patient gets a summary only for their own patient id |
| SessionWorker.SummaryCounts | doctorai-connect/backend/src/worker.js:114-139 | the visit count is the patient's number of appointments; engagement is "regular" exactly above three visits; without visits the medication and last-visit texts are the fallbacks |
| VisitSummary.Latest | doctorai-connect/backend/src/worker.js:115 | none exactly for an empty history; otherwise the last row, which carries the greatest date when the history is sorted |
| VisitSummary.CurrentMedications | doctorai-connect/backend/src/worker.js:118 | never empty: the latest appointment's medications, or "None documented" when there is no appointment or its medications are empty |
| VisitSummary.LastVisit | doctorai-connect/backend/src/worker.js:126 | never empty: the latest appointment's date, or "No recent visits" when there is no appointment or its date is empty |
| VisitSummary.Allergies | doctorai-connect/backend/src/worker.js:119 | the allergy text of each appointment, in order |
| VisitSummary.Distinct | doctorai-connect/backend/src/worker.js:119 | `[...new Set(xs.filter(Boolean))]`: exactly the non-empty values, once each, in order of first appearance |
| VisitSummary.KnownAllergies | doctorai-connect/backend/src/worker.js:119 | "None documented" when no appointment names an allergy, and otherwise the distinct allergy texts joined by ", " |
| VisitSummary.EngagementOf | doctorai-connect/backend/src/worker.js:135-139 | regular exactly above three visits, intermittent exactly for one to three, limited exactly for none |
| VisitSummary.EmptyHistory | doctorai-connect/backend/src/worker.js:113-139 | a patient without appointments gets every fallback text and limited engagement |
| VisitSummary.RepeatedAllergy | doctorai-connect/backend/src/worker.js:119 | the same allergy noted at two visits is listed once |
| Chat.ClassifyIsFirstGroup | doctorai-connect/backend/src/worker.js:170-263 | the reply is chosen by the first keyword group, in the order diagnosis, treatment, advice, emergency, that the lower-cased message mentions |
| Chat.ClassifyIgnoresCase | doctorai-connect/backend/src/worker.js:170 | a message and its lower-cased form get the same reply |
| Chat.ContextNote | doctorai-connect/backend/src/worker.js:278-280 | the context is echoed exactly when it is truthy |
| Chat.HandleChat | doctorai-connect/backend/src/worker.js:155-291 | a body that is not JSON or is `null` fails with 500 and a falsy message is 400; a reply is given exactly for a truthy string message, on the topic of its keywords, and only the general reply carries context or the history note |
| Chat.ChatIgnoresSession | doctorai-connect/backend/src/worker.js:157-160 | the reply does not depend on the cookie |
| Chat.ContextOnlyInGeneral | doctorai-connect/backend/src/worker.js:278-280 | for a keyword message, bodies that differ only in context or history get the same reply |
| Chat.GeneralReplyMentions | doctorai-connect/backend/src/worker.js:264-280 | the general reply echoes a truthy context and notes a non-empty history |
| Signup.FirstProblem | doctorai-connect/frontend/src/pages/Signup.jsx:42-55 | the checks in order: the mismatch first, then a password under six UTF-16 units, then a patient without a doctor, each exactly when the earlier ones pass |
| Signup.Payload | doctorai-connect/frontend/src/pages/Signup.jsx:60-69 | the fields are copied, the full name falls back to the name, and the doctor id is `parseInt` of a non-empty choice and null exactly for an empty one |
| Signup.Submit | doctorai-connect/frontend/src/pages/Signup.jsx:37-84 | the form is refused exactly when some check fails, with the first problem, and otherwise the payload is sent |
| Signup.MismatchFirst | doctorai-connect/frontend/src/pages/Signup.jsx:42-45 | a password mismatch is reported whatever else is wrong |
| Signup.SubmitSends | doctorai-connect/frontend/src/pages/Signup.jsx:42-55 | the form is sent exactly when the passwords match, are at least six long, and a patient has picked a doctor |
| Signup.DoctorNeedsNoDoctor | doctorai-connect/frontend/src/pages/Signup.jsx:52 | a doctor with a valid password is never asked to pick a doctor |
| Signup.SelectedDoctorId | doctorai-connect/frontend/src/pages/Signup.jsx:68 | a chosen doctor's decimal id reaches the server as that number |
| Signup.AfterReply | doctorai-connect/frontend/src/pages/Signup.jsx:77-80 | a created doctor goes to `/doctor` and anyone else to `/patient`; a refusal shows the server's error when it is a non-empty string and "Signup failed" otherwise |
| AppRoutes.ProtectedRoute | frontend/src/App.jsx:8-28 | a spinner while loading, `/login` without a user, `/unauthorized` exactly when a role list excludes the user, the page exactly otherwise |
| AppRoutes.RootRedirect | frontend/src/App.jsx:52-61 | the root always redirects: to `/login` exactly without a user, to `/doctor` exactly for a doctor, and to `/patient` for every other signed-in role |
| AppRoutes.Route | frontend/src/App.jsx:30-72 | a pathname that matches `/login` shows the login page and one matching `/unauthorized` the unauthorized page, both ungated; one matching `/doctor` or `/patient` gets that dashboard behind its role gate, one matching `/` the root redirect, and one matching no route renders nothing |
| AppRoutes.PatternsDisjoint | frontend/src/App.jsx:34-70 | no pathname matches two routes of the table |
| AppRoutes.MatchesTrailingSlash | frontend/src/App.jsx:34-70 | a route path matches a pathname with an extra trailing slash exactly when it matches the pathname |
| AppRoutes.MatchesLowered | frontend/src/App.jsx:34-70 | lower-casing a pathname changes no route match |
| AppRoutes.RouteIgnoresCase | frontend/src/App.jsx:34-70 | a pathname and its lower-cased form render the same screen |
| AppRoutes.RouteIgnoresTrailingSlash | frontend/src/App.jsx:34-70 | a pathname with and without a trailing slash render the same screen |
| AppRoutes.DoctorRouteSpellings | frontend/src/App.jsx:36-43 | `/doctor`, `/Doctor/` and `/DOCTOR` reach the doctor route, and `/doctors` does not |
| AppRoutes.DashboardsByRole | frontend/src/App.jsx:36-51 | on any pathname its route matches, each dashboard shows exactly for its own role, and without a user both redirect to `/login` |
| AppRoutes.RootLanding | frontend/src/App.jsx:36-61 | following the root redirect, a doctor or patient lands on their dashboard, any other role on `/unauthorized`, and no user on the login page |
| AppRoutes.RootIgnoresLoading | frontend/src/App.jsx:52-61 | while loading, the root already redirects to `/login` where a protected route shows the spinner |
| AppRoutes.EmptyRolesAdmitNobody | frontend/src/App.jsx:23-25 | an empty role list turns every user away |
| AppRoutes.NoRolesAdmitEveryone | frontend/src/App.jsx:23-27 | without a role list every signed-in user sees the page |
| Tables.FirstIndex | doctorai-connect/backend/src/worker.js:35 | `.first()`: the first matching row, and none only when no row matches |
| Tables.FirstRow | doctorai-connect/backend/src/worker.js:35 | `.first()`: a row the condition holds for, with no earlier row meeting it, and none only when no row does; every keyed lookup of both workers goes through it |
| Tables.SortByDate | doctorai-connect/backend/src/worker.js:110 | `ORDER BY date ASC`: a permutation of the rows, sorted by date |
| Tables.SortByDateDesc | doctorai-connect/backend/src/worker.js:83 | `ORDER BY date DESC`: a permutation of the rows, newest first |
| Tables.SortById | doctorai-connect/backend/src/worker.js:65 | `ORDER BY id`: a permutation of the rows, sorted by id |
| Tables.TextLeTransitive | doctorai-connect/backend/src/worker.js:110 | the BINARY text order used by `ORDER BY date` is transitive |
| Tables.AppointmentsOf | doctorai-connect/backend/src/worker.js:80-84 | the join keeps exactly the patient's appointments whose doctor exists, each as many times as the table holds it |
| Tables.PatientOfUser | backend/src/worker.ts:190-191 | the patient found belongs to the given user, and none is found only when no patient does |

## Left out

- HTTP plumbing:
  - Hono's routing and CORS middleware.
  - Cookie attributes such as `httpOnly`, `sameSite` and `maxAge`.
  - The JSON layout of response bodies.
- Unmodelled endpoints, which hold no logic beyond a constant reply or a
  cookie write:
  - logout and health in both revisions;
  - `/api/debug` and `/api/me` in worker.js;
  - the seed-password endpoint in worker.ts.
- The token revision's list routes return the D1 result object as JSON.
  The model returns its rows, because the wrapper's other fields come
  from D1 and are not visible.
- zod's e-mail regular expression is the `isEmail` parameter of
  `TokenWorker.LoginFields`. The text after "Invalid request: " is not
  modelled, because it is zod's message.
- JSON numbers are integers. Fractions and exponents do not occur in the
  ids and never come out of `JSON.stringify` of the claims.
- SessionCodec.DecodeSession: its own contract states only the
  empty-cookie case. How a well-formed cookie decodes is stated by
  `SessionCodec.SessionRoundTrip`.
- `SessionCodec.DecodeSession` accepts only the layout `JSON.stringify`
  produces. Other valid JSON layouts and non-object values decode to no
  session.
- `JsonText.ReadChar` does not model `\u` escapes of surrogate pairs.
  Latin-1 text never needs them.
- `Number(c.req.param('id'))` is taken as an input, `NaN` or a number.
  Its string conversion rules are not modelled.
- SQLite type affinity is not modelled:
  - `SessionWorker.CreateAppointment` returns the bound values.
  - The id SQLite assigns is the `lastRowId` parameter of either
    revision's `CreateAppointment`; the model does not state how SQLite
    picks it.
  - worker.js reads that id from `info.lastRowId`. Whether that property
    exists depends on the D1 version, so the model returns the parameter.
- `Strings.ToLower` lower-cases Latin-1 letters only.
- The join columns `doctor_name` and `specialization` of the appointment
  reads are omitted from the rows.
- The Workers AI call and its prompt (backend/src/worker.ts:370-399) are
  left out. The AI's reply text is the `ai` parameter of
  `TokenWorker.AiSummary`.
- The HTML text of the canned summary is left out, and so is the age
  computed from `new Date()` (worker.js:124). `VisitSummary.Findings`
  holds the values the text interpolates.
- The order among appointments with equal dates is left out, because
  SQLite leaves it unspecified.
- Chat.HistoryNote: an object's `length` counts only when it is a JSON
  number. A `length` string such as `"2"`, which JavaScript would compare
  numerically, is not modelled, nor a `length` of `true` or `[3]`, which
  JavaScript also compares as greater than zero.
- SessionWorker.AccountByEmail: only a string e-mail matches a row. A
  numeric e-mail compared with the text column under SQLite's affinity
  rules is not modelled. An array of byte values binds as a blob, which
  no text e-mail equals.
- The joins in `Tables.AppointmentsOf` and `TokenWorker.PatientHistory`
  yield each appointment once because `doctors.id` is the table's key;
  the model relies on that key rather than restating the SQL join's
  row multiplication.
- JsValues.ParseInt: the result is an unbounded integer. JavaScript
  numbers are doubles, so above 2^53 in magnitude `parseInt` rounds
  (`parseInt("9007199254740993")` is 9007199254740992); ids that large are
  out of scope.
- JsValues.ParseIntDecimal: holds for JavaScript only for integers of
  magnitude at most 2^53, and `Strings.IntToDecimal` writes plain digits
  where `String(n)` switches to exponent notation from 1e21.
- TokenWorker.UpdateAppointmentAsWritten: that an `undefined` binding is
  refused rests on D1's documented bind conversion (a `D1_TYPE_ERROR`),
  not on code in the repository.
- AppRoutes.Matches: the percent-decoding of the pathname and a router
  `basename` are not modelled; the pathname is taken as decoded.
- The sign-up page's `localStorage` write, the `onLoggedIn` callback and
  the loading flag are left out. So are the other React pages and
  frontend/src/api.js, which only render or forward data.

## Findings

| source | as written | input that shows it | evidently intended | confidence | as-written member | corrected member |
|---|---|---|---|---|---|---|
| backend/src/worker.ts:353-359 | `appointments.map(...)` is called on what `.all()` returns, which is D1's result object `{ results, ... }` and has no `map`; the `catch` turns the TypeError into 500 | any permitted request for an existing patient | map over `appointments.results`, as worker.js does | medium, not executed | TokenWorker.AiSummaryAsWritten | TokenWorker.AiSummary |
| backend/src/worker.ts:69-89 | the unknown e-mail is refused before hashing, but for a known e-mail `btoa` (line 139) throws on a password outside Latin-1 and the `catch` answers 400 | a login with the password `Ā` (U+0100): 401 for an unknown e-mail, 400 for a known one | a password that cannot be hashed is a wrong password, 401, so the reply does not reveal which e-mails have accounts | medium, not executed | TokenWorker.EncodingRevealsAccount | TokenWorker.LoginUniform |
| backend/src/worker.ts:300-307 | the fields a partial patch omits are bound as `undefined`, which D1 refuses, so the `catch` answers 400 | a doctor's PUT `/api/appointments/1` with body `{"notes":"x"}` | bind an omitted field as NULL so that `COALESCE` keeps the stored column | medium, not executed | TokenWorker.UpdateAppointmentAsWritten | TokenWorker.UpdateAppointment |
| doctorai-connect/backend/src/worker.js:100 | `requireSession` returns a 401 Response object when there is no session, and `if (!sess) return` tests that object, which is truthy; the handler carries on and serves the summary | a POST to `/api/patients/1/ai-summary` with no cookie, where patient 1 exists | answer 401 when there is no session | high, not executed | SessionWorker.SummaryWithoutSession | SessionWorker.GuardedSummary |

=== FILE: app_routes.dfy ===
/** Client-side routing of the token revision's frontend
    (frontend/src/App.jsx): `ProtectedRoute` decides between a spinner, a
    redirect and the protected page from the auth state, and the route
    table gates the two dashboards by role and redirects the root. */
module AppRoutes {
  import opened Optional
  import opened Strings

  /** The signed-in user of the auth context; only the role is consulted. */
  datatype AuthUser = AuthUser(role: string)

  datatype Page = LoginPage | DoctorDashboard | PatientDashboard | UnauthorizedPage

  /** What a route renders: the loading spinner, a `<Navigate replace>`, a
      page, or nothing when no route matches. */
  datatype Screen = Spinner | Redirect(to: string) | Show(page: Page) | Nothing

  /** `ProtectedRoute`. `allowedRoles` None stands for the prop being
      absent; an array, even an empty one, is truthy. */
  function ProtectedRoute(loading: bool, user: Option<AuthUser>, allowedRoles: Option<seq<string>>, children: Page): (s: Screen)
    ensures loading ==> s == Spinner
    ensures !loading && user.None? ==> s == Redirect("/login")
    ensures s == Redirect("/unauthorized") <==>
      !loading && user.Some? && allowedRoles.Some? && user.value.role !in allowedRoles.value
    ensures s == Show(children) <==>
      !loading && user.Some? && (allowedRoles.None? || user.value.role in allowedRoles.value)
  {
    if loading then Spinner
    else if user.None? then Redirect("/login")
    else if allowedRoles.Some? && user.value.role !in allowedRoles.value then Redirect("/unauthorized")
    else Show(children)
  }

  /** The root route: a doctor to `/doctor`, any other user to `/patient`,
      no user to `/login`. It does not wait for loading to finish. */
  function RootRedirect(user: Option<AuthUser>): (s: Screen)
    ensures s.Redirect?
    ensures s.to == "/login" <==> user.None?
    ensures s.to == "/doctor" <==> user.Some? && user.value.role == "doctor"
    ensures user.Some? && user.value.role != "doctor" ==> s == Redirect("/patient")
  {
    match user
    case None => Redirect("/login")
    case Some(u) => Redirect(if u.role == "doctor" then "/doctor" else "/patient")
  }

  /** Whether a `<Route path={pattern}>` of React Router v6 matches a
      pathname: the pattern's characters without regard to case
      (`caseSensitive` is off by default), then any number of trailing
      slashes. The patterns here are lower-case ASCII, which only the same
      letter or its ASCII capital matches. */
  predicate Matches(pattern: string, path: string) {
    && |pattern| <= |path|
    && (forall i :: 0 <= i < |pattern| ==> LowerChar(path[i]) == pattern[i])
    && (forall i :: |pattern| <= i < |path| ==> path[i] == '/')
  }

  /** No pathname matches two of the route patterns: they differ in the
      second character, and `/` leaves only slashes after it. */
  lemma PatternsDisjoint(path: string)
    ensures Matches("/", path) ==>
      !Matches("/login", path) && !Matches("/doctor", path) && !Matches("/patient", path) && !Matches("/unauthorized", path)
    ensures Matches("/login", path) ==>
      !Matches("/doctor", path) && !Matches("/patient", path) && !Matches("/unauthorized", path)
    ensures Matches("/doctor", path) ==> !Matches("/patient", path) && !Matches("/unauthorized", path)
    ensures Matches("/patient", path) ==> !Matches("/unauthorized", path)
  {
    assert LowerChar('/') == '/';
    if |path| >= 2 {
      var c := LowerChar(path[1]);
      assert Matches("/", path) ==> c == '/';
      assert Matches("/login", path) ==> c == 'l';
      assert Matches("/doctor", path) ==> c == 'd';
      assert Matches("/patient", path) ==> c == 'p';
      assert Matches("/unauthorized", path) ==> c == 'u';
    }
  }

  /** `AppRoutes`: the screen for a pathname given the auth state. */
  function Route(path: string, loading: bool, user: Option<AuthUser>): (s: Screen)
    ensures Matches("/doctor", path) ==> s == ProtectedRoute(loading, user, Some(["doctor"]), DoctorDashboard)
    ensures Matches("/patient", path) ==> s == ProtectedRoute(loading, user, Some(["patient"]), PatientDashboard)
    ensures Matches("/login", path) ==> s == Show(LoginPage)
    ensures Matches("/", path) ==> s == RootRedirect(user)
    ensures Matches("/unauthorized", path) ==> s == Show(UnauthorizedPage)
    ensures s == Nothing <==>
      !Matches("/login", path) && !Matches("/doctor", path) && !Matches("/patient", path)
      && !Matches("/", path) && !Matches("/unauthorized", path)
  {
    PatternsDisjoint(path);
    if Matches("/login", path) then Show(LoginPage)
    else if Matches("/doctor", path) then ProtectedRoute(loading, user, Some(["doctor"]), DoctorDashboard)
    else if Matches("/patient", path) then ProtectedRoute(loading, user, Some(["patient"]), PatientDashboard)
    else if Matches("/", path) then RootRedirect(user)
    else if Matches("/unauthorized", path) then Show(UnauthorizedPage)
    else Nothing
  }

  /** A pattern not ending in a slash matches a pathname with one more
      trailing slash exactly when it matches the pathname. */
  lemma MatchesTrailingSlash(pattern: string, path: string)
    requires (|pattern| > 0 && pattern[|pattern| - 1] != '/') || pattern == "/"
    requires |path| > 0
    ensures Matches(pattern, path + "/") <==> Matches(pattern, path)
  {
    var q := path + "/";
    assert forall i :: 0 <= i < |path| ==> q[i] == path[i];
    assert q[|path|] == '/' && LowerChar('/') == '/';
  }

  /** Lower-casing the pathname changes no match. */
  lemma MatchesLowered(pattern: string, path: string)
    ensures Matches(pattern, ToLower(path)) <==> Matches(pattern, path)
  {
    var t := ToLower(path);
    assert forall i :: 0 <= i < |path| ==> LowerChar(t[i]) == LowerChar(path[i]);
    assert forall i :: 0 <= i < |path| ==> (t[i] == '/' <==> path[i] == '/');
  }

  /** The same screen, whatever the case of the pathname's letters. */
  lemma RouteIgnoresCase(path: string, loading: bool, user: Option<AuthUser>)
    ensures Route(ToLower(path), loading, user) == Route(path, loading, user)
  {
    MatchesLowered("/login", path);
    MatchesLowered("/doctor", path);
    MatchesLowered("/patient", path);
    MatchesLowered("/", path);
    MatchesLowered("/unauthorized", path);
  }

  /** The same screen with or without a trailing slash. */
  lemma RouteIgnoresTrailingSlash(path: string, loading: bool, user: Option<AuthUser>)
    requires |path| > 0
    ensures Route(path + "/", loading, user) == Route(path, loading, user)
  {
    MatchesTrailingSlash("/login", path);
    MatchesTrailingSlash("/doctor", path);
    MatchesTrailingSlash("/patient", path);
    MatchesTrailingSlash("/", path);
    MatchesTrailingSlash("/unauthorized", path);
  }

  /** An empty role list turns every signed-in user away. */
  lemma EmptyRolesAdmitNobody(user: AuthUser, children: Page)
    ensures ProtectedRoute(false, Some(user), Some([]), children) == Redirect("/unauthorized")
  {
  }

  /** Without a role list every signed-in user gets the page. */
  lemma NoRolesAdmitEveryone(user: AuthUser, children: Page)
    ensures ProtectedRoute(false, Some(user), None, children) == Show(children)
  {
  }

  /** Each dashboard shows only for its own role, once loading is over,
      on every pathname its route matches. */
  lemma DashboardsByRole(path: string, user: Option<AuthUser>)
    ensures Matches("/doctor", path) ==>
      (Route(path, false, user) == Show(DoctorDashboard) <==> user.Some? && user.value.role == "doctor")
    ensures Matches("/patient", path) ==>
      (Route(path, false, user) == Show(PatientDashboard) <==> user.Some? && user.value.role == "patient")
    ensures (Matches("/doctor", path) || Matches("/patient", path)) && user.None? ==>
      Route(path, false, user) == Redirect("/login")
  {
  }

  /** The doctor route also answers a capitalised pathname with a trailing
      slash. */
  lemma DoctorRouteSpellings()
    ensures Matches("/doctor", "/doctor") && Matches("/doctor", "/Doctor/") && Matches("/doctor", "/DOCTOR")
    ensures !Matches("/doctor", "/doctors")
  {
    assert LowerChar('D') == 'd' && LowerChar('O') == 'o' && LowerChar('C') == 'c';
    assert LowerChar('T') == 't' && LowerChar('R') == 'r';
    assert "/doctors"[7] != '/';
  }

  /** Following the root redirect: a doctor or a patient lands on their
      dashboard, any other role on `/unauthorized`, and no user on the
      login page. */
  lemma RootLanding(user: Option<AuthUser>)
    ensures var next := Route(Route("/", false, user).to, false, user);
      && (user.None? ==> next == Show(LoginPage))
      && (user.Some? && user.value.role == "doctor" ==> next == Show(DoctorDashboard))
      && (user.Some? && user.value.role == "patient" ==> next == Show(PatientDashboard))
      && (user.Some? && user.value.role !in {"doctor", "patient"} ==> next == Redirect("/unauthorized"))
  {
  }

  /** While the auth state loads, the root already redirects to `/login`
      when no user is known yet, where the protected routes would show the
      spinner. */
  lemma RootIgnoresLoading()
    ensures Route("/", true, None) == Redirect("/login")
    ensures Route("/doctor", true, None) == Spinner
  {
  }
}

=== FILE: base64.dfy ===
/** Base64 as JavaScript's `btoa` and `atob` apply it: the alphabet and
    padding of section 4 of RFC 4648, applied to a "binary string" whose
    characters are bytes. `btoa` throws on a character above U+00FF; `atob`
    is the forgiving decoder of the WHATWG HTML standard (white space is
    ignored, padding is optional, leftover bits are dropped). */
module Base64 {
  import opened Optional

  type Byte = x: int | 0 <= x < 256
  type Sextet = x: int | 0 <= x < 64

  /** Every character is a single byte (code point at most U+00FF). */
  predicate Latin1(s: string) {
    forall i :: 0 <= i < |s| ==> s[i] as int < 256
  }

  /** A concatenation is Latin-1 exactly when both halves are. */
  lemma Latin1Concat(a: string, b: string)
    ensures Latin1(a + b) <==> Latin1(a) && Latin1(b)
  {
    if Latin1(a) && Latin1(b) {
      forall i | 0 <= i < |a + b|
        ensures (a + b)[i] as int < 256
      {
        if i >= |a| {
          assert (a + b)[i] == b[i - |a|];
        }
      }
    }
    if Latin1(a + b) {
      forall i | 0 <= i < |b|
        ensures b[i] as int < 256
      {
        assert (a + b)[|a| + i] == b[i];
      }
      forall i | 0 <= i < |a|
        ensures a[i] as int < 256
      {
        assert (a + b)[i] == a[i];
      }
    }
  }

  function BytesOf(s: string): (b: seq<Byte>)
    requires Latin1(s)
    ensures |b| == |s| && forall i :: 0 <= i < |s| ==> b[i] == s[i] as int
  {
    seq(|s|, i requires 0 <= i < |s| => s[i] as int)
  }

  function CharsOf(b: seq<Byte>): (s: string)
    ensures |s| == |b| && forall i :: 0 <= i < |b| ==> s[i] as int == b[i]
  {
    seq(|b|, i requires 0 <= i < |b| => b[i] as char)
  }

  /** The character of the base64 alphabet (Table 1 of RFC 4648) for `v`. */
  function SextetChar(v: Sextet): char {
    if v < 26 then ('A' as int + v) as char
    else if v < 52 then ('a' as int + v - 26) as char
    else if v < 62 then ('0' as int + v - 52) as char
    else if v == 62 then '+'
    else '/'
  }

  /** The inverse of `SextetChar`: None for a character outside the alphabet. */
  function SextetOf(c: char): (r: Option<Sextet>)
    ensures r.Some? ==> SextetChar(r.value) == c
  {
    if 'A' <= c <= 'Z' then Some(c as int - 'A' as int)
    else if 'a' <= c <= 'z' then Some(c as int - 'a' as int + 26)
    else if '0' <= c <= '9' then Some(c as int - '0' as int + 52)
    else if c == '+' then Some(62)
    else if c == '/' then Some(63)
    else None
  }

  lemma SextetRoundTrip(v: Sextet)
    ensures SextetOf(SextetChar(v)) == Some(v)
  {
  }

  /** The sextets of `b` without padding: four per full group of three
      bytes, then two for a final single byte or three for a final pair. */
  function EncodeSextets(b: seq<Byte>): (vs: seq<Sextet>)
    ensures |vs| % 4 == (if |b| % 3 == 0 then 0 else |b| % 3 + 1)
    ensures |vs| == 0 <==> |b| == 0
  {
    if |b| == 0 then []
    else if |b| == 1 then [b[0] / 4, (b[0] % 4) * 16]
    else if |b| == 2 then [b[0] / 4, (b[0] % 4) * 16 + b[1] / 16, (b[1] % 16) * 4]
    else
      [b[0] / 4, (b[0] % 4) * 16 + b[1] / 16, (b[1] % 16) * 4 + b[2] / 64, b[2] % 64]
      + EncodeSextets(b[3..])
  }

  /** The bytes carried by a run of sextets, dropping the bits left over
      after the last whole byte. */
  function DecodeSextets(vs: seq<Sextet>): seq<Byte>
    requires |vs| % 4 != 1
  {
    if |vs| == 0 then []
    else if |vs| == 2 then [High(vs[0], vs[1])]
    else if |vs| == 3 then [High(vs[0], vs[1]), Middle(vs[1], vs[2])]
    else [High(vs[0], vs[1]), Middle(vs[1], vs[2]), Low(vs[2], vs[3])] + DecodeSextets(vs[4..])
  }

  /** The first byte of a group: six bits of `a` and the top two of `b`. */
  function High(a: Sextet, b: Sextet): Byte {
    (a as int) * 4 + (b as int) / 16
  }

  /** The second byte of a group: the low four bits of `b` and the top four of `c`. */
  function Middle(b: Sextet, c: Sextet): Byte {
    ((b as int) % 16) * 16 + (c as int) / 4
  }

  /** The third byte of a group: the low two bits of `c` and all of `d`. */
  function Low(c: Sextet, d: Sextet): Byte {
    ((c as int) % 4) * 64 + d as int
  }

  function Chars(vs: seq<Sextet>): (s: string)
    ensures |s| == |vs| && forall i :: 0 <= i < |vs| ==> s[i] == SextetChar(vs[i])
  {
    seq(|vs|, i requires 0 <= i < |vs| => SextetChar(vs[i]))
  }

  /** The sextets of a string of alphabet characters; None if any character
      is outside the alphabet. */
  function Sextets(s: string): (r: Option<seq<Sextet>>)
    ensures r.Some? ==> |r.value| == |s|
  {
    if |s| == 0 then Some([])
    else
      match (SextetOf(s[0]), Sextets(s[1..]))
      case (Some(v), Some(vs)) => Some([v] + vs)
      case _ => None
  }

  /** Padding that completes the final group of four characters. */
  function Padding(n: nat): string {
    if n % 3 == 1 then "==" else if n % 3 == 2 then "=" else ""
  }

  /** RFC 4648 section 4 encoding of a byte sequence, padded with `=`. */
  function EncodeBytes(b: seq<Byte>): (s: string)
    ensures |s| % 4 == 0
  {
    Chars(EncodeSextets(b)) + Padding(|b|)
  }

  /** `btoa(s)`: None where JavaScript throws, i.e. when a character is above U+00FF. */
  function Btoa(s: string): Option<string> {
    if Latin1(s) then Some(EncodeBytes(BytesOf(s))) else None
  }

  /** ASCII white space, which the forgiving decoder removes first. */
  predicate IsAsciiSpace(c: char) {
    c == '\t' || c == '\n' || c == '\U{000C}' || c == '\r' || c == ' '
  }

  function RemoveSpace(s: string): (r: string)
    ensures |r| <= |s|
  {
    if |s| == 0 then ""
    else if IsAsciiSpace(s[0]) then RemoveSpace(s[1..])
    else [s[0]] + RemoveSpace(s[1..])
  }

  /** When the length is a multiple of four, one or two trailing `=` are dropped. */
  function StripPadding(t: string): string {
    if |t| % 4 == 0 && |t| >= 2 && t[|t| - 1] == '=' && t[|t| - 2] == '=' then t[..|t| - 2]
    else if |t| % 4 == 0 && |t| >= 1 && t[|t| - 1] == '=' then t[..|t| - 1]
    else t
  }

  /** `atob(s)`: the forgiving-base64 decode; None where JavaScript throws. */
  function Atob(s: string): (r: Option<string>)
    ensures r.Some? ==> Latin1(r.value)
  {
    var u := StripPadding(RemoveSpace(s));
    if |u| % 4 == 1 then None
    else
      match Sextets(u)
      case None => None
      case Some(vs) => Some(CharsOf(DecodeSextets(vs)))
  }

  /** Decoding the sextets of a byte sequence gives the bytes back. */
  lemma {:induction false} SextetsRoundTrip(b: seq<Byte>)
    ensures DecodeSextets(EncodeSextets(b)) == b
  {
    if |b| >= 3 {
      var vs := EncodeSextets(b);
      assert vs[4..] == EncodeSextets(b[3..]);
      SextetsRoundTrip(b[3..]);
      var x, y, z := b[0], b[1], b[2];
      assert ((x % 4) * 16 + y / 16) / 16 == x % 4;
      assert ((x % 4) * 16 + y / 16) % 16 == y / 16;
      assert ((y % 16) * 4 + z / 64) / 4 == y % 16;
      assert ((y % 16) * 4 + z / 64) % 4 == z / 64;
      assert b == [x, y, z] + b[3..];
    } else if |b| == 2 {
      var x, y := b[0], b[1];
      assert ((x % 4) * 16 + y / 16) / 16 == x % 4;
      assert ((x % 4) * 16 + y / 16) % 16 == y / 16;
      assert ((y % 16) * 4) / 4 == y % 16;
    }
  }

  lemma {:induction false} CharsRoundTrip(vs: seq<Sextet>)
    ensures Sextets(Chars(vs)) == Some(vs)
  {
    if |vs| > 0 {
      CharsRoundTrip(vs[1..]);
      assert Chars(vs)[1..] == Chars(vs[1..]);
      SextetRoundTrip(vs[0]);
      assert [vs[0]] + vs[1..] == vs;
    }
  }

  lemma {:induction false} NoSpaceInChars(vs: seq<Sextet>)
    ensures RemoveSpace(Chars(vs)) == Chars(vs)
  {
    if |vs| > 0 {
      NoSpaceInChars(vs[1..]);
      assert Chars(vs)[1..] == Chars(vs[1..]);
      assert [Chars(vs)[0]] + Chars(vs)[1..] == Chars(vs);
    }
  }

  lemma {:induction false} NoSpaceInPadding(s: string, p: string)
    requires RemoveSpace(s) == s
    requires p == "" || p == "=" || p == "=="
    ensures RemoveSpace(s + p) == s + p
  {
    if |s| == 0 {
      assert s + p == p;
    } else {
      assert (s + p)[1..] == s[1..] + p;
      NoSpaceInPadding(s[1..], p);
      assert [s[0]] + s[1..] == s;
    }
  }

  lemma SextetCharNotPad(v: Sextet)
    ensures SextetChar(v) != '='
  {
  }

  /** Stripping removes exactly the padding after a run that does not end in `=`. */
  lemma StripAfter(c: string, p: string)
    requires p == "" || p == "=" || p == "=="
    requires |c + p| % 4 == 0
    requires |c| > 0 ==> c[|c| - 1] != '='
    requires p == "=" ==> |c| > 0
    ensures StripPadding(c + p) == c
  {
    var e := c + p;
    assert e[..|c|] == c;
    if p == "=" {
      assert e[|e| - 2] == c[|c| - 1];
    } else if p == "" {
      assert e == c;
    }
  }

  /** Removing the padding of an encoding leaves the alphabet characters. */
  lemma StripEncodingPadding(b: seq<Byte>)
    ensures StripPadding(EncodeBytes(b)) == Chars(EncodeSextets(b))
  {
    var vs := EncodeSextets(b);
    var c := Chars(vs);
    if |c| > 0 {
      SextetCharNotPad(vs[|c| - 1]);
    }
    StripAfter(c, Padding(|b|));
  }

  /** `atob` undoes `btoa`: decoding an encoding gives the original
      binary string. */
  lemma BtoaRoundTrip(s: string)
    requires Latin1(s)
    ensures Btoa(s).Some?
    ensures Atob(Btoa(s).value) == Some(s)
  {
    var b := BytesOf(s);
    var vs := EncodeSextets(b);
    NoSpaceInChars(vs);
    NoSpaceInPadding(Chars(vs), Padding(|b|));
    StripEncodingPadding(b);
    CharsRoundTrip(vs);
    SextetsRoundTrip(b);
    assert CharsOf(b) == s;
  }

  /** Distinct binary strings have distinct encodings. */
  lemma BtoaInjective(s: string, t: string)
    requires Btoa(s).Some? && Btoa(s) == Btoa(t)
    ensures s == t
  {
    BtoaRoundTrip(s);
    BtoaRoundTrip(t);
  }
}

=== FILE: chat.dfy ===
/** POST /api/chat of the base64-JSON backend
    (doctorai-connect/backend/src/worker.js): a canned medical-assistant
    reply chosen by keywords in the lower-cased message. The reply texts
    are not modelled, only which one is chosen and what the general reply
    mentions. The session cookie is decoded but never required. */
module Chat {
  import opened Optional
  import opened Strings
  import opened JsValues
  import opened SessionCodec

  /** The five canned replies, in the order the handler tests for them. */
  datatype Topic = Diagnosis | Treatment | Advice | Emergency | General

  /** A keyword group and the reply it selects. */
  datatype Group = Group(topic: Topic, words: seq<string>)

  /** The keyword groups in priority order. */
  const Groups: seq<Group> := [
    Group(Diagnosis, ["diagnosis", "symptom", "condition"]),
    Group(Treatment, ["treatment", "medication", "therapy"]),
    Group(Advice, ["advice", "recommendation", "guidance"]),
    Group(Emergency, ["emergency", "urgent", "critical"])
  ]

  /** `text.includes(w)` for some word `w` of the group. */
  predicate Mentions(text: string, words: seq<string>) {
    exists i :: 0 <= i < |words| && Contains(text, words[i])
  }

  /** The reply the handler's `if`/`else if` chain picks for a message. */
  function Classify(message: string): Topic {
    Chain(ToLower(message))
  }

  /** The `if`/`else if` chain on the lower-cased message. */
  function Chain(lower: string): Topic {
    if Contains(lower, "diagnosis") || Contains(lower, "symptom") || Contains(lower, "condition") then Diagnosis
    else if Contains(lower, "treatment") || Contains(lower, "medication") || Contains(lower, "therapy") then Treatment
    else if Contains(lower, "advice") || Contains(lower, "recommendation") || Contains(lower, "guidance") then Advice
    else if Contains(lower, "emergency") || Contains(lower, "urgent") || Contains(lower, "critical") then Emergency
    else General
  }

  /** The topic of the first group in `groups` the text mentions, or
      `General` when it mentions none. */
  function FirstGroup(groups: seq<Group>, text: string): Topic {
    if |groups| == 0 then General
    else if Mentions(text, groups[0].words) then groups[0].topic
    else FirstGroup(groups[1..], text)
  }

  lemma MentionsThree(text: string, a: string, b: string, c: string)
    ensures Mentions(text, [a, b, c]) <==> Contains(text, a) || Contains(text, b) || Contains(text, c)
  {
    var words := [a, b, c];
    if Contains(text, a) {
      assert Contains(text, words[0]);
    }
    if Contains(text, b) {
      assert Contains(text, words[1]);
    }
    if Contains(text, c) {
      assert Contains(text, words[2]);
    }
  }

  lemma ChainIsFirstGroup(lower: string)
    ensures Chain(lower) == FirstGroup(Groups, lower)
  {
    var g1 := Groups[1..];
    var g2 := g1[1..];
    var g3 := g2[1..];
    assert g3[1..] == [];
    assert FirstGroup(g3, lower) == if Mentions(lower, g3[0].words) then Emergency else General;
    assert FirstGroup(g2, lower) == if Mentions(lower, g2[0].words) then Advice else FirstGroup(g3, lower);
    assert FirstGroup(g1, lower) == if Mentions(lower, g1[0].words) then Treatment else FirstGroup(g2, lower);
    MentionsThree(lower, "diagnosis", "symptom", "condition");
    MentionsThree(lower, "treatment", "medication", "therapy");
    MentionsThree(lower, "advice", "recommendation", "guidance");
    MentionsThree(lower, "emergency", "urgent", "critical");
  }

  /** The handler's chain is the priority rule: the first group, in the
      order diagnosis, treatment, advice, emergency, that the lower-cased
      message mentions decides the reply. */
  lemma ClassifyIsFirstGroup(message: string)
    ensures Classify(message) == FirstGroup(Groups, ToLower(message))
  {
    ChainIsFirstGroup(ToLower(message));
  }

  lemma {:induction false} LowerTwice(s: string)
    ensures ToLower(ToLower(s)) == ToLower(s)
  {
    forall i | 0 <= i < |s|
      ensures ToLower(ToLower(s))[i] == ToLower(s)[i]
    {
      assert LowerChar(LowerChar(s[i])) == LowerChar(s[i]);
    }
  }

  /** Case does not matter: a message and its lower-cased form get the
      same reply. */
  lemma ClassifyIgnoresCase(message: string)
    ensures Classify(ToLower(message)) == Classify(message)
  {
    LowerTwice(message);
  }

  /** What the reply says: the topic, and for the general reply the patient
      context (when truthy) and whether the history note is shown. */
  datatype Answer = Answer(topic: Topic, context: Option<Json>, historyNote: bool)

  datatype ChatReply =
    | Respond(answer: Answer)
    | MessageRequired
      /** A thrown error, answered with 500 and its message. */
    | Failed
  {
    function Status(): int {
      match this
      case Respond(_) => 200
      case MessageRequired => 400
      case Failed => 500
    }
  }

  /** `history && history.length > 0`: a non-empty string or array, or an
      object whose `length` property is a positive number. */
  predicate HistoryNote(history: Option<Json>) {
    Present(history) &&
    match history.value
    case JStr(s) => |s| > 0
    case JArr(items) => |items| > 0
    case JObj(f) => "length" in f && f["length"].JNum? && f["length"].n > 0
    case _ => false
  }

  /** The context value interpolated into the general reply, when truthy. */
  function ContextNote(context: Option<Json>): (r: Option<Json>)
    ensures r.Some? <==> Present(context)
    ensures r.Some? ==> r == context
  {
    if Present(context) then context else None
  }

  /** POST /api/chat. `body` is None when the request text is not JSON, which
      the handler's `try` turns into a 500, as it does for a `null` body
      and for a truthy message that is not a string (it has no
      `toLowerCase`). A falsy or absent message is a 400. */
  function HandleChat(cookie: Option<string>, body: Option<Json>): (r: ChatReply)
    ensures body.None? || body == Some(JNull) ==> r == Failed
    ensures body.Some? && body.value != JNull && !Present(Field(body.value, "message")) ==> r == MessageRequired
    ensures r.Respond? <==>
      body.Some? && Present(Field(body.value, "message")) && Field(body.value, "message").value.JStr?
    ensures r.Respond? ==> r.answer.topic == Classify(Field(body.value, "message").value.s)
    ensures r.Respond? && r.answer.topic != General ==> r.answer.context.None? && !r.answer.historyNote
  {
    var session := DecodeSession(cookie);
    if body.None? || body.value == JNull then Failed
    else
      var message := Field(body.value, "message");
      if !Present(message) then MessageRequired
      else if !message.value.JStr? then Failed
      else
        var topic := Classify(message.value.s);
        if topic != General then Respond(Answer(topic, None, false))
        else Respond(Answer(General, ContextNote(Field(body.value, "context")), HistoryNote(Field(body.value, "history"))))
  }

  /** No session is needed: the reply is the same with any cookie or none. */
  lemma ChatIgnoresSession(c: Option<string>, d: Option<string>, body: Option<Json>)
    ensures HandleChat(c, body) == HandleChat(d, body)
  {
  }

  /** `context` and `history` only reach the general reply: for a message
      that names a keyword, any two bodies with that message get the same
      answer. */
  lemma ContextOnlyInGeneral(cookie: Option<string>, f: map<string, Json>, g: map<string, Json>, m: string)
    requires "message" in f && "message" in g && f["message"] == g["message"] == JStr(m)
    requires m != "" && Classify(m) != General
    ensures HandleChat(cookie, Some(JObj(f))) == HandleChat(cookie, Some(JObj(g)))
         == Respond(Answer(Classify(m), None, false))
  {
  }

  /** A general message echoes a truthy context and notes a non-empty history. */
  lemma GeneralReplyMentions(cookie: Option<string>, m: string, context: Json, history: seq<Json>)
    requires m != "" && Classify(m) == General && Truthy(context)
    ensures HandleChat(cookie, Some(JObj(map["message" := JStr(m), "context" := context, "history" := JArr(history)])))
         == Respond(Answer(General, Some(context), |history| > 0))
  {
  }
}

=== FILE: http.dfy ===
/** A handler's answer: an error status with the `{ error }` text, or a
    success status with its JSON body. */
module Http {

  datatype Reply<B> = Fail(status: int, error: string) | Done(status: int, body: B) {

    function Status(): int {
      match this
      case Fail(s, _) => s
      case Done(s, _) => s
    }
  }
}

=== FILE: json.dfy ===
/** The parts of JSON (ECMA-404) that the session cookie carries: strings
    quoted and escaped the way `JSON.stringify` writes them, integers, and
    `null`, with parsers that accept what `JSON.parse` accepts for those
    tokens. */
module JsonText {
  import opened Optional
  import opened Strings

  /** Lower-case hexadecimal digit, as `JSON.stringify` writes `\u00XX`. */
  function HexDigit(d: nat): char
    requires d < 16
  {
    if d < 10 then ('0' as int + d) as char else ('a' as int + d - 10) as char
  }

  /** The value of a hexadecimal digit of either case. */
  function HexValue(c: char): Option<nat> {
    if '0' <= c <= '9' then Some(c as int - '0' as int)
    else if 'a' <= c <= 'f' then Some(c as int - 'a' as int + 10)
    else if 'A' <= c <= 'F' then Some(c as int - 'A' as int + 10)
    else None
  }

  /** One character inside a `JSON.stringify` string: the seven short
      escapes, `\u00XX` for the other control characters, itself otherwise. */
  function EscapeChar(c: char): string {
    if c == '"' then "\\\""
    else if c == '\\' then "\\\\"
    else if c as int == 0x08 then "\\b"
    else if c == '\t' then "\\t"
    else if c == '\n' then "\\n"
    else if c as int == 0x0C then "\\f"
    else if c == '\r' then "\\r"
    else if (c as int) < 0x20 then ['\\', 'u', '0', '0', HexDigit(c as int / 16), HexDigit(c as int % 16)]
    else [c]
  }

  function Escape(s: string): string {
    if |s| == 0 then "" else EscapeChar(s[0]) + Escape(s[1..])
  }

  /** `JSON.stringify` of a string. */
  function Quote(s: string): string {
    "\"" + Escape(s) + "\""
  }

  /** `JSON.stringify` of an integer or `null`. */
  function NullOrInt(v: Option<int>): string {
    match v
    case None => "null"
    case Some(i) => IntToDecimal(i)
  }

  /** The remainder of `s` after the literal text `p`, if `s` starts with it. */
  function Literal(p: string, s: string): (r: Option<string>)
    ensures r.Some? ==> s == p + r.value
  {
    if IsPrefix(p, s) then Some(s[|p|..]) else None
  }

  lemma LiteralOf(p: string, rest: string)
    ensures Literal(p, p + rest) == Some(rest)
  {
    assert (p + rest)[..|p|] == p;
    assert (p + rest)[|p|..] == rest;
  }

  /** Four hexadecimal digits as a code unit. */
  function Hex4(s: string): Option<nat>
    requires |s| >= 4
  {
    match (HexValue(s[0]), HexValue(s[1]), HexValue(s[2]), HexValue(s[3]))
    case (Some(a), Some(b), Some(c), Some(d)) => Some(((a * 16 + b) * 16 + c) * 16 + d)
    case _ => None
  }

  /** One (possibly escaped) character at the start of a string body and the
      number of characters it takes. A raw control character, an unknown
      escape, and a `\u` escape of a surrogate are rejected. */
  function ReadChar(s: string): (r: Option<(char, nat)>)
    requires |s| > 0
    ensures r.Some? ==> 1 <= r.value.1 <= |s|
  {
    if s[0] == '\\' then
      if |s| < 2 then None
      else if s[1] == '"' || s[1] == '\\' || s[1] == '/' then Some((s[1], 2))
      else if s[1] == 'b' then Some((0x08 as char, 2))
      else if s[1] == 't' then Some(('\t', 2))
      else if s[1] == 'n' then Some(('\n', 2))
      else if s[1] == 'f' then Some((0x0C as char, 2))
      else if s[1] == 'r' then Some(('\r', 2))
      else if s[1] == 'u' && |s| >= 6 then
        match Hex4(s[2..6])
        case Some(v) =>
          if 0xD800 <= v <= 0xDFFF then None else Some((v as char, 6))
        case None => None
      else None
    else if (s[0] as int) < 0x20 then None
    else Some((s[0], 1))
  }

  /** The body of a JSON string after its opening quote: the decoded
      characters and what follows the closing quote. */
  function ParseStringBody(s: string): Option<(string, string)>
    decreases |s|
  {
    if |s| == 0 then None
    else if s[0] == '"' then Some(("", s[1..]))
    else
      match ReadChar(s)
      case None => None
      case Some((c, k)) =>
        match ParseStringBody(s[k..])
        case None => None
        case Some((t, r)) => Some(([c] + t, r))
  }

  function ParseString(s: string): Option<(string, string)> {
    if |s| > 0 && s[0] == '"' then ParseStringBody(s[1..]) else None
  }

  function DigitCount(s: string): (k: nat)
    ensures k <= |s|
    ensures forall i :: 0 <= i < k ==> IsDigit(s[i])
  {
    if |s| > 0 && IsDigit(s[0]) then 1 + DigitCount(s[1..]) else 0
  }

  /** A JSON integer: an optional minus, then `0` or a numeral without a
      leading zero. */
  function ParseNumber(s: string): Option<(int, string)> {
    var negative := |s| > 0 && s[0] == '-';
    var t := if negative then s[1..] else s;
    var k := if |t| > 0 && t[0] == '0' then 1 else DigitCount(t);
    if k == 0 then None
    else
      var m: int := DecimalValue(t[..k]);
      Some((if negative then -m else m, t[k..]))
  }

  function ParseNullOrInt(s: string): Option<(Option<int>, string)> {
    if IsPrefix("null", s) then Some((None, s[4..]))
    else
      match ParseNumber(s)
      case None => None
      case Some((i, r)) => Some((Some(i), r))
  }

  lemma ReadEscaped(c: char, tail: string)
    ensures EscapeChar(c)[0] != '"'
    ensures ReadChar(EscapeChar(c) + tail) == Some((c, |EscapeChar(c)|))
  {
    var e := EscapeChar(c);
    var s := e + tail;
    if c != '"' && c != '\\' && c as int != 0x08 && c != '\t' && c != '\n'
       && c as int != 0x0C && c != '\r' && (c as int) < 0x20 {
      assert s[2..6] == e[2..6];
      var hi, lo := c as int / 16, c as int % 16;
      assert HexValue(HexDigit(hi)) == Some(hi);
      assert HexValue(HexDigit(lo)) == Some(lo);
      assert Hex4(s[2..6]) == Some(c as int);
    }
  }

  /** Parsing a `JSON.stringify`-escaped string body gives the string back
      and leaves whatever follows the closing quote. */
  lemma {:induction false} StringBodyRoundTrip(x: string, rest: string)
    ensures ParseStringBody(Escape(x) + "\"" + rest) == Some((x, rest))
  {
    var s := Escape(x) + "\"" + rest;
    if |x| == 0 {
      assert s == "\"" + rest;
      assert s[1..] == rest;
    } else {
      var e := EscapeChar(x[0]);
      var tail := Escape(x[1..]) + "\"" + rest;
      assert s == e + tail;
      ReadEscaped(x[0], tail);
      assert s[|e|..] == tail;
      StringBodyRoundTrip(x[1..], rest);
      assert [x[0]] + x[1..] == x;
    }
  }

  lemma StringRoundTrip(x: string, rest: string)
    ensures ParseString(Quote(x) + rest) == Some((x, rest))
  {
    var s := Quote(x) + rest;
    assert s[1..] == Escape(x) + "\"" + rest;
    StringBodyRoundTrip(x, rest);
  }

  lemma {:induction false} DigitCountAll(ds: string, rest: string)
    requires forall i :: 0 <= i < |ds| ==> IsDigit(ds[i])
    requires |rest| == 0 || !IsDigit(rest[0])
    ensures DigitCount(ds + rest) == |ds|
  {
    if |ds| > 0 {
      assert (ds + rest)[1..] == ds[1..] + rest;
      DigitCountAll(ds[1..], rest);
    } else {
      assert ds + rest == rest;
    }
  }

  /** The digits of a numeral without a leading zero are read up to the
      first non-digit that follows. */
  lemma NumeralPrefix(ds: string, rest: string)
    requires |ds| >= 1 && forall i :: 0 <= i < |ds| ==> IsDigit(ds[i])
    requires ds[0] == '0' ==> |ds| == 1
    requires |rest| == 0 || !IsDigit(rest[0])
    ensures var t := ds + rest;
      && (if |t| > 0 && t[0] == '0' then 1 else DigitCount(t)) == |ds|
      && t[..|ds|] == ds && t[|ds|..] == rest
  {
    var t := ds + rest;
    assert t[0] == ds[0];
    if ds[0] != '0' {
      DigitCountAll(ds, rest);
    }
    assert t[..|ds|] == ds;
    assert t[|ds|..] == rest;
  }

  /** Parsing what `String(i)` writes gives `i` back when no digit follows. */
  lemma NumberRoundTrip(i: int, rest: string)
    requires |rest| == 0 || !IsDigit(rest[0])
    ensures ParseNumber(IntToDecimal(i) + rest) == Some((i, rest))
  {
    var n: nat := if i < 0 then -i else i;
    var ds := NatToDecimal(n);
    var t := ds + rest;
    NumeralPrefix(ds, rest);
    if i < 0 {
      var s := IntToDecimal(i) + rest;
      assert s == "-" + t;
      assert s[0] == '-';
      assert s[1..] == t;
    } else {
      assert IntToDecimal(i) + rest == t;
      assert t[0] == ds[0];
    }
  }

  lemma NullOrIntRoundTrip(v: Option<int>, rest: string)
    requires |rest| == 0 || !IsDigit(rest[0])
    ensures ParseNullOrInt(NullOrInt(v) + rest) == Some((v, rest))
  {
    if v.Some? {
      NumberRoundTrip(v.value, rest);
      var s := NullOrInt(v) + rest;
      assert !IsPrefix("null", s) by {
        assert s[0] != 'n';
      }
    } else {
      LiteralOf("null", rest);
    }
  }
}

=== FILE: jsvalues.dfy ===
/** JavaScript values as far as the handlers use them: the result of
    `parseInt`, the value of a parsed JSON request body, and JavaScript
    truthiness. */
module JsValues {
  import opened Optional
  import opened Strings

  /** A JavaScript number produced by `parseInt`: NaN or an integer. */
  datatype JsInt = NaN | Int(value: int)

  /** A JavaScript number produced by `Number(...)`: NaN or a finite value. */
  datatype JsNumber = NumNaN | Num(value: real)

  /** Strict equality `a === b` between an integer and a number; NaN equals nothing. */
  predicate SameNumber(a: int, b: JsNumber) {
    b.Num? && a as real == b.value
  }

  /** The characters `parseInt` skips before the number (WhiteSpace and
      LineTerminator of section 12.2 and 12.3 of ECMA-262). */
  predicate IsJsSpace(c: char) {
    var n := c as int;
    (0x09 <= n <= 0x0D) || n == 0x20 || n == 0xA0 || n == 0x1680
    || (0x2000 <= n <= 0x200A) || n == 0x2028 || n == 0x2029
    || n == 0x202F || n == 0x205F || n == 0x3000 || n == 0xFEFF
  }

  function TrimStart(s: string): (r: string)
    ensures |r| <= |s| && r == s[|s| - |r|..]
    ensures |r| > 0 ==> !IsJsSpace(r[0])
    ensures forall i :: 0 <= i < |s| - |r| ==> IsJsSpace(s[i])
  {
    if |s| > 0 && IsJsSpace(s[0]) then TrimStart(s[1..]) else s
  }

  /** The value of an ASCII letter or digit as a digit (0-35), or 36 otherwise. */
  function DigitOf(c: char): (d: nat)
    ensures d <= 36
    ensures IsDigit(c) ==> d == c as int - '0' as int
    ensures !IsDigit(c) ==> d >= 10
  {
    if '0' <= c <= '9' then c as int - '0' as int
    else if 'a' <= c <= 'z' then c as int - 'a' as int + 10
    else if 'A' <= c <= 'Z' then c as int - 'A' as int + 10
    else 36
  }

  /** The number of leading characters of `s` that are digits in `radix`. */
  function DigitRun(s: string, radix: nat): (k: nat)
    ensures k <= |s|
    ensures forall i :: 0 <= i < k ==> DigitOf(s[i]) < radix
    ensures k < |s| ==> DigitOf(s[k]) >= radix
  {
    if |s| > 0 && DigitOf(s[0]) < radix then 1 + DigitRun(s[1..], radix) else 0
  }

  /** The value of a digit string in `radix` (10 or 16), most significant
      digit first. */
  function RadixValue(ds: string, radix: nat): nat
    requires radix == 10 || radix == 16
    requires forall i :: 0 <= i < |ds| ==> DigitOf(ds[i]) < radix
  {
    if |ds| == 0 then 0
    else
      var last := ds[|ds| - 1];
      assert DigitOf(last) < radix;
      var high := RadixValue(ds[..|ds| - 1], radix);
      (if radix == 16 then high * 16 else high * 10) + DigitOf(last)
  }

  /** The unsigned part of `parseInt`: hexadecimal after a `0x`/`0X` prefix,
      decimal otherwise, over the longest run of digits; None when there is
      no digit. */
  function ParseMagnitude(u: string): Option<nat> {
    var hex := |u| >= 2 && u[0] == '0' && (u[1] == 'x' || u[1] == 'X');
    var radix := if hex then 16 else 10;
    var body := if hex then u[2..] else u;
    var k := DigitRun(body, radix);
    if k == 0 then None else Some(RadixValue(body[..k], radix))
  }

  /** `parseInt(s)` without a radix argument: skip leading white space, take
      an optional sign, then the magnitude; no digits gives NaN. */
  function ParseInt(s: string): JsInt {
    var t := TrimStart(s);
    var signed := |t| > 0 && (t[0] == '-' || t[0] == '+');
    match ParseMagnitude(if signed then t[1..] else t)
    case None => NaN
    case Some(m) => Int(if signed && t[0] == '-' then -(m as int) else m)
  }

  lemma {:induction false} DecimalIsRadixTen(ds: string)
    requires forall i :: 0 <= i < |ds| ==> IsDigit(ds[i])
    ensures RadixValue(ds, 10) == DecimalValue(ds)
  {
    if |ds| > 0 {
      DecimalIsRadixTen(ds[..|ds| - 1]);
    }
  }

  lemma {:induction false} DigitRunAll(ds: string, rest: string)
    requires forall i :: 0 <= i < |ds| ==> IsDigit(ds[i])
    requires |rest| == 0 || !IsDigit(rest[0])
    ensures DigitRun(ds + rest, 10) == |ds|
  {
    var s := ds + rest;
    if |ds| > 0 {
      assert s[0] == ds[0];
      assert s[1..] == ds[1..] + rest;
      DigitRunAll(ds[1..], rest);
    } else {
      assert s == rest;
    }
  }

  /** The magnitude of a canonical decimal numeral is its value. */
  lemma MagnitudeOfNumeral(ds: string)
    requires |ds| >= 1 && forall i :: 0 <= i < |ds| ==> IsDigit(ds[i])
    requires ds[0] == '0' ==> |ds| == 1
    ensures ParseMagnitude(ds) == Some(DecimalValue(ds))
  {
    DigitRunAll(ds, "");
    assert ds + "" == ds;
    assert ds[..|ds|] == ds;
    DecimalIsRadixTen(ds);
  }

  /** `parseInt` of an unsigned numeral is its value. */
  lemma ParseIntNumeral(ds: string)
    requires |ds| >= 1 && forall i :: 0 <= i < |ds| ==> IsDigit(ds[i])
    requires ds[0] == '0' ==> |ds| == 1
    ensures ParseInt(ds) == Int(DecimalValue(ds))
  {
    MagnitudeOfNumeral(ds);
    ParseIntUnsigned(ds, DecimalValue(ds));
  }

  /** Text that starts with neither white space nor a sign is read as its
      magnitude. */
  lemma ParseIntUnsigned(t: string, m: nat)
    requires |t| > 0 && !IsJsSpace(t[0]) && t[0] != '-' && t[0] != '+'
    requires ParseMagnitude(t) == Some(m)
    ensures ParseInt(t) == Int(m)
  {
    assert TrimStart(t) == t;
  }

  /** `parseInt` of a minus sign and a numeral is the negated value. */
  lemma ParseIntNegative(ds: string)
    requires |ds| >= 1 && forall i :: 0 <= i < |ds| ==> IsDigit(ds[i])
    requires ds[0] == '0' ==> |ds| == 1
    ensures ParseInt("-" + ds) == Int(-(DecimalValue(ds) as int))
  {
    MagnitudeOfNumeral(ds);
    var s := "-" + ds;
    assert s[1..] == ds;
    ParseIntMinus(s, DecimalValue(ds));
  }

  /** Text that starts with a minus sign is read as its negated magnitude. */
  lemma ParseIntMinus(t: string, m: nat)
    requires |t| > 0 && t[0] == '-'
    requires ParseMagnitude(t[1..]) == Some(m)
    ensures ParseInt(t) == Int(-(m as int))
  {
    assert !IsJsSpace(t[0]);
    assert TrimStart(t) == t;
  }

  /** `parseInt` reads back what `String(i)` writes for every integer `i`. */
  lemma ParseIntDecimal(i: int)
    ensures ParseInt(IntToDecimal(i)) == Int(i)
  {
    if i < 0 {
      ParseIntNegative(NatToDecimal(-i));
    } else {
      ParseIntNumeral(NatToDecimal(i));
    }
  }

  /** `parseInt` gives NaN for text that, after white space, starts with
      neither a sign nor a decimal digit. */
  lemma ParseIntNoDigit(s: string)
    requires |s| > 0 && !IsJsSpace(s[0]) && s[0] != '-' && s[0] != '+'
    requires !IsDigit(s[0])
    ensures ParseInt(s) == NaN
  {
    assert TrimStart(s) == s;
    assert DigitOf(s[0]) >= 10;
  }

  /** The value of a JSON request body after `JSON.parse`. Numbers are the
      integers the handlers receive as ids. */
  datatype Json =
    | JNull
    | JBool(b: bool)
    | JNum(n: int)
    | JStr(s: string)
    | JArr(items: seq<Json>)
    | JObj(fields: map<string, Json>)

  /** JavaScript truthiness: `null`, `false`, `0` and `""` are falsy; arrays
      and objects are truthy even when empty. */
  predicate Truthy(v: Json) {
    match v
    case JNull => false
    case JBool(b) => b
    case JNum(n) => n != 0
    case JStr(s) => |s| > 0
    case JArr(_) => true
    case JObj(_) => true
  }

  /** Truthiness of a possibly-undefined property value. */
  predicate Present(v: Option<Json>) {
    v.Some? && Truthy(v.value)
  }

  /** Reading property `key` of a non-null value: an object's own field, and
      `undefined` for any other key or value. */
  function Field(v: Json, key: string): (r: Option<Json>)
    ensures r.Some? <==> v.JObj? && key in v.fields
    ensures r.Some? ==> r.value == v.fields[key]
  {
    if v.JObj? && key in v.fields then Some(v.fields[key]) else None
  }

  /** A login body carrying an e-mail and a password string. */
  function Credentials(email: string, password: string): Json {
    JObj(map["email" := JStr(email), "password" := JStr(password)])
  }

  lemma CredentialsFields(email: string, password: string)
    ensures Field(Credentials(email, password), "email") == Some(JStr(email))
    ensures Field(Credentials(email, password), "password") == Some(JStr(password))
  {
    assert "email" != "password";
  }
}

=== FILE: optional.dfy ===
/** The optional value used wherever the source has `null`, `undefined` or a
    call that can throw. */
module Optional {

  datatype Option<+T> = None | Some(value: T) {

    predicate IsFailure() {
      None?
    }

    function PropagateFailure<U>(): Option<U>
      requires None?
    {
      None
    }

    function Extract(): T
      requires Some?
    {
      value
    }

    /** `x ?? d`: the carried value, or the default when absent. */
    function GetOr(default: T): T {
      match this
      case Some(v) => v
      case None => default
    }
  }
}

=== FILE: session_codec.dfy ===
/** The session cookie of the base64-JSON backend
    (doctorai-connect/backend/src/worker.js): the claim set is written with
    `JSON.stringify`, encoded with `btoa`, and read back with `atob` and
    `JSON.parse`, any failure reading as "no session". Nothing signs the
    token. */
module SessionCodec {
  import opened Optional
  import opened Strings
  import opened JsonText
  import opened Base64

  /** The claim set the login handler builds, in its key order. */
  datatype Claims = Claims(
    userId: int,
    role: string,
    patientId: Option<int>,
    doctorId: Option<int>,
    name: string,
    email: string)

  /** `btoa` accepts the serialised claims iff every string claim is Latin-1. */
  predicate Encodable(c: Claims) {
    Latin1(c.role) && Latin1(c.name) && Latin1(c.email)
  }

  /** `JSON.stringify(claims)`, built from the back so that each key and
      value is a prefix of the rest. */
  function Serialize(c: Claims): string {
    "{\"userId\":" + (IntToDecimal(c.userId) + RolePart(c))
  }

  function RolePart(c: Claims): string {
    ",\"role\":" + (Quote(c.role) + PatientPart(c))
  }

  function PatientPart(c: Claims): string {
    ",\"patientId\":" + (NullOrInt(c.patientId) + DoctorPart(c))
  }

  function DoctorPart(c: Claims): string {
    ",\"doctorId\":" + (NullOrInt(c.doctorId) + NamePart(c))
  }

  function NamePart(c: Claims): string {
    ",\"name\":" + (Quote(c.name) + EmailPart(c))
  }

  function EmailPart(c: Claims): string {
    ",\"email\":" + (Quote(c.email) + "}")
  }

  /** `JSON.parse` restricted to the layout `Serialize` writes; anything else
      is a parse failure. */
  function ParseClaims(s: string): Option<Claims> {
    var r0 :- Literal("{\"userId\":", s);
    var userId :- ParseNumber(r0);
    var r1 :- Literal(",\"role\":", userId.1);
    var role :- ParseString(r1);
    var r2 :- Literal(",\"patientId\":", role.1);
    var patientId :- ParseNullOrInt(r2);
    var r3 :- Literal(",\"doctorId\":", patientId.1);
    var doctorId :- ParseNullOrInt(r3);
    var r4 :- Literal(",\"name\":", doctorId.1);
    var name :- ParseString(r4);
    var r5 :- Literal(",\"email\":", name.1);
    var email :- ParseString(r5);
    if email.1 == "}" then Some(Claims(userId.0, role.0, patientId.0, doctorId.0, name.0, email.0))
    else None
  }

  /** Parsing the serialised claims gives the claims back. */
  lemma SerializeRoundTrip(c: Claims)
    ensures ParseClaims(Serialize(c)) == Some(c)
  {
    LiteralOf("{\"userId\":", IntToDecimal(c.userId) + RolePart(c));
    NumberRoundTrip(c.userId, RolePart(c));
    LiteralOf(",\"role\":", Quote(c.role) + PatientPart(c));
    StringRoundTrip(c.role, PatientPart(c));
    LiteralOf(",\"patientId\":", NullOrInt(c.patientId) + DoctorPart(c));
    NullOrIntRoundTrip(c.patientId, DoctorPart(c));
    LiteralOf(",\"doctorId\":", NullOrInt(c.doctorId) + NamePart(c));
    NullOrIntRoundTrip(c.doctorId, NamePart(c));
    LiteralOf(",\"name\":", Quote(c.name) + EmailPart(c));
    StringRoundTrip(c.name, EmailPart(c));
    LiteralOf(",\"email\":", Quote(c.email) + "}");
    StringRoundTrip(c.email, "}");
  }

  /** Escaping keeps a string Latin-1 exactly when it was Latin-1. */
  lemma {:induction false} EscapeLatin1(s: string)
    ensures Latin1(Escape(s)) <==> Latin1(s)
  {
    if |s| > 0 {
      EscapeLatin1(s[1..]);
      Latin1Concat(EscapeChar(s[0]), Escape(s[1..]));
      Latin1Concat([s[0]], s[1..]);
      assert [s[0]] + s[1..] == s;
      if (s[0] as int) >= 0x20 && s[0] != '"' && s[0] != '\\' {
        assert EscapeChar(s[0]) == [s[0]];
      }
    }
  }

  lemma QuoteLatin1(s: string)
    ensures Latin1(Quote(s)) <==> Latin1(s)
  {
    EscapeLatin1(s);
    Latin1Concat("\"", Escape(s));
    Latin1Concat("\"" + Escape(s), "\"");
  }

  lemma NumbersLatin1(v: Option<int>, i: int)
    ensures Latin1(NullOrInt(v)) && Latin1(IntToDecimal(i))
  {
    var n: nat := if i < 0 then -i else i;
    assert Latin1(NatToDecimal(n));
    if i < 0 {
      Latin1Concat("-", NatToDecimal(n));
    }
    if v.Some? {
      var m: nat := if v.value < 0 then -v.value else v.value;
      assert Latin1(NatToDecimal(m));
      if v.value < 0 {
        Latin1Concat("-", NatToDecimal(m));
      }
    }
  }

  /** Literal JSON punctuation and key names are ASCII. */
  lemma FixedLatin1(a: string, b: string)
    requires Latin1(a)
    ensures Latin1(a + b) <==> Latin1(b)
  {
    Latin1Concat(a, b);
  }

  /** The JSON punctuation and key names the claims are written with. */
  lemma KeysLatin1()
    ensures Latin1("{\"userId\":") && Latin1(",\"role\":") && Latin1(",\"patientId\":")
    ensures Latin1(",\"doctorId\":") && Latin1(",\"name\":") && Latin1(",\"email\":") && Latin1("}")
  {
  }

  lemma EmailPartLatin1(c: Claims)
    ensures Latin1(EmailPart(c)) <==> Latin1(c.email)
  {
    KeysLatin1();
    QuoteLatin1(c.email);
    Latin1Concat(Quote(c.email), "}");
    FixedLatin1(",\"email\":", Quote(c.email) + "}");
  }

  lemma NamePartLatin1(c: Claims)
    ensures Latin1(NamePart(c)) <==> Latin1(c.name) && Latin1(c.email)
  {
    KeysLatin1();
    EmailPartLatin1(c);
    QuoteLatin1(c.name);
    Latin1Concat(Quote(c.name), EmailPart(c));
    FixedLatin1(",\"name\":", Quote(c.name) + EmailPart(c));
  }

  lemma DoctorPartLatin1(c: Claims)
    ensures Latin1(DoctorPart(c)) <==> Latin1(c.name) && Latin1(c.email)
  {
    KeysLatin1();
    NamePartLatin1(c);
    NumbersLatin1(c.doctorId, c.userId);
    Latin1Concat(NullOrInt(c.doctorId), NamePart(c));
    FixedLatin1(",\"doctorId\":", NullOrInt(c.doctorId) + NamePart(c));
  }

  lemma PatientPartLatin1(c: Claims)
    ensures Latin1(PatientPart(c)) <==> Latin1(c.name) && Latin1(c.email)
  {
    KeysLatin1();
    DoctorPartLatin1(c);
    NumbersLatin1(c.patientId, c.userId);
    Latin1Concat(NullOrInt(c.patientId), DoctorPart(c));
    FixedLatin1(",\"patientId\":", NullOrInt(c.patientId) + DoctorPart(c));
  }

  lemma RolePartLatin1(c: Claims)
    ensures Latin1(RolePart(c)) <==> Encodable(c)
  {
    KeysLatin1();
    PatientPartLatin1(c);
    QuoteLatin1(c.role);
    Latin1Concat(Quote(c.role), PatientPart(c));
    FixedLatin1(",\"role\":", Quote(c.role) + PatientPart(c));
  }

  /** The serialised claims are Latin-1 exactly when the claims are encodable. */
  lemma SerializeLatin1(c: Claims)
    ensures Latin1(Serialize(c)) <==> Encodable(c)
  {
    KeysLatin1();
    RolePartLatin1(c);
    NumbersLatin1(c.patientId, c.userId);
    Latin1Concat(IntToDecimal(c.userId), RolePart(c));
    FixedLatin1("{\"userId\":", IntToDecimal(c.userId) + RolePart(c));
  }

  /** `encodeSession`: None where `btoa` throws on a non-Latin-1 claim. */
  function EncodeSession(c: Claims): (token: Option<string>)
    ensures token.Some? <==> Encodable(c)
  {
    SerializeLatin1(c);
    Btoa(Serialize(c))
  }

  /** `decodeSession` of the `session` cookie: an absent or empty cookie, a
      malformed base64 text or a malformed claim object all give None;
      nothing throws. */
  function DecodeSession(raw: Option<string>): (r: Option<Claims>)
    ensures (raw.None? || raw.value == "") ==> r.None?
  {
    if raw.None? || raw.value == "" then None
    else
      match Atob(raw.value)
      case None => None
      case Some(text) => ParseClaims(text)
  }

  /** The session codec round trip: the cookie written for encodable claims
      is non-empty and decodes to exactly those claims. */
  lemma SessionRoundTrip(c: Claims)
    requires Encodable(c)
    ensures EncodeSession(c).Some?
    ensures EncodeSession(c).value != ""
    ensures DecodeSession(EncodeSession(c)) == Some(c)
  {
    SerializeLatin1(c);
    var s := Serialize(c);
    BtoaRoundTrip(s);
    SerializeRoundTrip(c);
    assert |EncodeSextets(BytesOf(s))| > 0;
  }

  /** Two encodable claim sets share a cookie only if they are equal. */
  lemma EncodeSessionInjective(c: Claims, d: Claims)
    requires Encodable(c) && Encodable(d)
    requires EncodeSession(c) == EncodeSession(d)
    ensures c == d
  {
    SessionRoundTrip(c);
    SessionRoundTrip(d);
  }

  /** What `requireSession` returns: the claims, or a 401 Response object. */
  datatype SessionOrResponse = Session(claims: Claims) | Unauthorized

  /** `requireSession`: the decoded claims, or the 401 Response when there
      are none. The Response is itself a truthy value. */
  function RequireSession(cookie: Option<string>): (r: SessionOrResponse)
    ensures r.Session? <==> DecodeSession(cookie).Some?
    ensures r.Session? ==> r.claims == DecodeSession(cookie).value
  {
    match DecodeSession(cookie)
    case Some(c) => Session(c)
    case None => Unauthorized
  }

  /** Reading `.role` from what `requireSession` returned: the Response
      object has no `role` property. */
  function RoleOf(s: SessionOrResponse): Option<string> {
    match s
    case Session(c) => Some(c.role)
    case Unauthorized => None
  }

  /** `isDoctor`: the claims iff they decode and their role is `doctor`. */
  function IsDoctor(cookie: Option<string>): (r: Option<Claims>)
    ensures r.Some? <==> DecodeSession(cookie).Some? && DecodeSession(cookie).value.role == "doctor"
    ensures r.Some? ==> r == DecodeSession(cookie)
  {
    match DecodeSession(cookie)
    case Some(c) => if c.role == "doctor" then Some(c) else None
    case None => None
  }

  /** Nothing authenticates the cookie: anyone who can build encodable
      claims with role `doctor` is a doctor to `isDoctor`. */
  lemma ForgedDoctorCookie(c: Claims)
    requires Encodable(c) && c.role == "doctor"
    ensures IsDoctor(EncodeSession(c)) == Some(c)
  {
    SessionRoundTrip(c);
  }
}

=== FILE: session_worker.dfy ===
/** The base64-JSON revision of the backend
    (doctorai-connect/backend/src/worker.js): login writes the claims into
    the `session` cookie; handlers decode the cookie, check the role with
    `isDoctor` or `requireSession`, and answer forbidden access with 403.
    Several checks are switched off in this revision, and the model keeps
    them off. An exception escaping a handler is Hono's 500 reply. */
module SessionWorker {
  import opened Optional
  import opened Strings
  import opened JsValues
  import opened Base64
  import opened Tables
  import opened Http
  import opened SessionCodec
  import opened VisitSummary

  /** A `users` row of this revision: the password is stored in clear. */
  datatype Account = Account(id: int, email: string, passwordPlain: string, role: string, name: string)

  datatype Db = Db(
    users: seq<Account>,
    patients: seq<Patient>,
    doctors: seq<Doctor>,
    appointments: seq<Appointment>)

  /** The text of Hono's reply to an uncaught exception. */
  const ServerError := "Internal Server Error"

  /** The request body as the handlers destructure it: a body that is not
      JSON reads as `{}` through `.catch(() => ({}))`. */
  function BodyOrEmpty(body: Option<Json>): (v: Json)
    ensures body.None? ==> v == JObj(map[])
    ensures body.Some? ==> v == body.value
  {
    if body.None? then JObj(map[]) else body.value
  }

  /** Whether D1's `bind` accepts a value: null, a boolean, a number, a
      string, or an array of byte values (bound as a BLOB). Any other
      object makes `bind` throw a `D1_TYPE_ERROR`. */
  predicate Bindable(v: Json) {
    match v
    case JObj(_) => false
    case JArr(items) => forall i :: 0 <= i < |items| ==> items[i].JNum? && 0 <= items[i].n < 256
    case _ => true
  }

  // ---------------------------------------------------------------- login

  /** `SELECT ... FROM users WHERE email = ?` with `.first()`: only a string
      can equal a stored e-mail. */
  function AccountByEmail(users: seq<Account>, email: Json): (r: Option<Account>)
    ensures r.Some? ==> r.value in users && email == JStr(r.value.email)
    ensures r.None? <==> forall u :: u in users ==> email != JStr(u.email)
  {
    FirstRow(users, (u: Account) => email == JStr(u.email))
  }

  /** The claims login derives for an account: a patient carries the id of
      their patient row (or none) and no doctor id; every other role
      carries the id of their doctor row (or none) and no patient id. */
  function ClaimsFor(db: Db, u: Account): (c: Claims)
    ensures c.userId == u.id && c.role == u.role && c.name == u.name && c.email == u.email
    ensures u.role == "patient" ==> c.doctorId.None?
    ensures u.role == "patient" ==> (c.patientId.Some? <==> exists p :: p in db.patients && p.userId == u.id)
    ensures u.role != "patient" ==> c.patientId.None?
    ensures u.role != "patient" ==> (c.doctorId.Some? <==> exists d :: d in db.doctors && d.userId == u.id)
    ensures c.patientId.Some? ==> exists p :: p in db.patients && p.userId == u.id && p.id == c.patientId.value
    ensures c.doctorId.Some? ==> exists d :: d in db.doctors && d.userId == u.id && d.id == c.doctorId.value
  {
    if u.role == "patient" then
      var p := PatientOfUser(db.patients, u.id);
      Claims(u.id, u.role, if p.Some? then Some(p.value.id) else None, None, u.name, u.email)
    else
      var d := DoctorOfUser(db.doctors, u.id);
      Claims(u.id, u.role, None, if d.Some? then Some(d.value.id) else None, u.name, u.email)
  }

  /** A successful login: the claims (also the `user` of the reply) and the
      `session` cookie value. */
  datatype SignedIn = SignedIn(claims: Claims, cookie: string)

  const CredentialsRequired := "email and password required"
  const InvalidCredentials := "invalid credentials"

  /** The account a login body names with the right password, if any. */
  function Authenticated(db: Db, v: Json): Option<Account> {
    var email := Field(v, "email");
    var password := Field(v, "password");
    if !Present(email) || !Present(password) then None
    else
      match AccountByEmail(db.users, email.value)
      case None => None
      case Some(u) => if password.value == JStr(u.passwordPlain) then Some(u) else None
  }

  /** POST /api/login. A body that is not JSON counts as `{}`; a `null` body
      throws when destructured; a falsy e-mail or password is a 400; an
      e-mail `bind` refuses throws, a 500; an unknown e-mail and a wrong
      password share one 401; `btoa` throwing on non-Latin-1 claims is a
      500. */
  function Login(db: Db, body: Option<Json>): (r: Reply<SignedIn>)
    ensures body == Some(JNull) ==> r == Fail(500, ServerError)
    ensures body.None? ==> r == Fail(400, CredentialsRequired)
    ensures body != Some(JNull) && !(Present(Field(BodyOrEmpty(body), "email")) && Present(Field(BodyOrEmpty(body), "password")))
      ==> r == Fail(400, CredentialsRequired)
    ensures body != Some(JNull)
      && Present(Field(BodyOrEmpty(body), "email")) && Present(Field(BodyOrEmpty(body), "password"))
      && !Bindable(Field(BodyOrEmpty(body), "email").value)
      ==> r == Fail(500, ServerError)
    ensures r == Fail(401, InvalidCredentials) <==>
      && body != Some(JNull)
      && Present(Field(BodyOrEmpty(body), "email")) && Present(Field(BodyOrEmpty(body), "password"))
      && Bindable(Field(BodyOrEmpty(body), "email").value)
      && Authenticated(db, BodyOrEmpty(body)).None?
    ensures r.Fail? ==> r.status in {400, 401, 500}
    ensures r.Fail? && r.status == 401 ==> r.error == InvalidCredentials
    ensures r.Done? <==>
      && body != Some(JNull)
      && Authenticated(db, BodyOrEmpty(body)).Some?
      && Encodable(ClaimsFor(db, Authenticated(db, BodyOrEmpty(body)).value))
    ensures r.Done? ==>
      && r.status == 200
      && r.body.claims == ClaimsFor(db, Authenticated(db, BodyOrEmpty(body)).value)
      && DecodeSession(Some(r.body.cookie)) == Some(r.body.claims)
  {
    var v := BodyOrEmpty(body);
    if v == JNull then Fail(500, ServerError)
    else
      var email := Field(v, "email");
      var password := Field(v, "password");
      if !Present(email) || !Present(password) then Fail(400, CredentialsRequired)
      else if !Bindable(email.value) then Fail(500, ServerError)
      else
        match Authenticated(db, v)
        case None => Fail(401, InvalidCredentials)
        case Some(u) =>
          var claims := ClaimsFor(db, u);
          match EncodeSession(claims)
          case None => Fail(500, ServerError)
          case Some(cookie) =>
            SessionRoundTrip(claims);
            Done(200, SignedIn(claims, cookie))
  }

  /** Login does not tell an unknown e-mail from a wrong password. */
  lemma NoAccountEnumeration(db: Db, unknown: string, known: string, wrong: string)
    requires unknown != "" && known != "" && wrong != ""
    requires forall u :: u in db.users ==> u.email != unknown
    requires AccountByEmail(db.users, JStr(known)).Some?
    requires AccountByEmail(db.users, JStr(known)).value.passwordPlain != wrong
    ensures Login(db, Some(Credentials(unknown, wrong)))
         == Login(db, Some(Credentials(known, wrong)))
         == Fail(401, InvalidCredentials)
  {
    CredentialsFields(unknown, wrong);
    CredentialsFields(known, wrong);
  }

  /** The cookie of a successful login is what `isDoctor` and
      `requireSession` later read: the same claims, and a doctor exactly
      when the account's role is `doctor`. */
  lemma LoginCookieAuthenticates(db: Db, body: Option<Json>)
    requires Login(db, body).Done?
    ensures var s := Login(db, body).body;
      && RequireSession(Some(s.cookie)) == Session(s.claims)
      && (IsDoctor(Some(s.cookie)).Some? <==> s.claims.role == "doctor")
  {
  }

  // ------------------------------------------------------------- patients

  /** The columns `id, full_name, dob` the patient queries select. */
  datatype PatientInfo = PatientInfo(id: int, fullName: string, dob: string)

  function Info(p: Patient): PatientInfo {
    PatientInfo(p.id, p.fullName, p.dob)
  }

  /** The selected columns of each row, in order. */
  function Infos(rows: seq<Patient>): (r: seq<PatientInfo>)
    ensures |r| == |rows|
    ensures forall i :: 0 <= i < |rows| ==> r[i] == Info(rows[i])
  {
    if |rows| == 0 then [] else [Info(rows[0])] + Infos(rows[1..])
  }

  /** Every row's projection is listed, and nothing else is. */
  lemma InfosMembers(rows: seq<Patient>)
    ensures forall p :: p in rows ==> Info(p) in Infos(rows)
    ensures forall x :: x in Infos(rows) ==> exists p :: p in rows && Info(p) == x
  {
    var r := Infos(rows);
    forall p | p in rows ensures Info(p) in r {
      var i :| 0 <= i < |rows| && rows[i] == p;
      assert r[i] == Info(p);
    }
    forall x | x in r ensures exists p :: p in rows && Info(p) == x {
      var i :| 0 <= i < |r| && r[i] == x;
      assert rows[i] in rows;
    }
  }

  /** Rows that are a permutation of each other project to a permutation
      of each other: every projected row appears as many times as before. */
  lemma InfosMultiset(a: seq<Patient>, b: seq<Patient>)
    requires multiset(a) == multiset(b)
    ensures multiset(Infos(a)) == multiset(Infos(b))
  {
    MapPermutation(a, b, Infos(a), Infos(b), Info);
  }

  /** A permutation keeps the length and the set of rows. */
  lemma SamePatients(a: seq<Patient>, b: seq<Patient>)
    requires multiset(a) == multiset(b)
    ensures |a| == |b|
    ensures forall p :: p in a <==> p in b
  {
    assert |a| == |multiset(a)| && |b| == |multiset(b)|;
    assert forall p :: p in a <==> p in multiset(a);
    assert forall p :: p in b <==> p in multiset(b);
  }

  /** GET /api/patients. `isDoctor` is consulted, but both branches run the
      same query: every patient, by ascending id, whoever asks. */
  function ListPatients(db: Db, cookie: Option<string>): (r: Reply<seq<PatientInfo>>)
    ensures r.Done? && r.status == 200
    ensures |r.body| == |db.patients|
    ensures forall i, j :: 0 <= i < j < |r.body| ==> r.body[i].id <= r.body[j].id
    ensures forall p :: p in db.patients ==> Info(p) in r.body
    ensures forall x :: x in r.body ==> exists p :: p in db.patients && Info(p) == x
    ensures multiset(r.body) == multiset(Infos(db.patients))
  {
    var sorted := SortById(db.patients);
    InfosMultiset(sorted, db.patients);
    SamePatients(sorted, db.patients);
    var rows := Infos(sorted);
    InfosMembers(sorted);
    if IsDoctor(cookie).Some? then Done(200, rows) else Done(200, rows)
  }

  /** The patient list does not depend on the session at all. */
  lemma ListIgnoresSession(db: Db, c: Option<string>, d: Option<string>)
    ensures ListPatients(db, c) == ListPatients(db, d)
  {
  }

  /** `SELECT ... FROM patients WHERE id = ?` with `.first()`, bound to the
      number `Number(param)`. */
  function PatientByNumber(patients: seq<Patient>, id: JsNumber): (r: Option<Patient>)
    ensures r.Some? ==> r.value in patients && SameNumber(r.value.id, id)
    ensures r.None? <==> forall p :: p in patients ==> !SameNumber(p.id, id)
  {
    FirstRow(patients, (p: Patient) => SameNumber(p.id, id))
  }

  /** The body of GET /api/patients/:id. */
  datatype PatientPage = PatientPage(patient: PatientInfo, appointments: seq<Appointment>)

  /** GET /api/patients/:id. The session check is commented out in this
      revision: only the id is checked. `id` is `Number(param)`. */
  function GetPatient(db: Db, cookie: Option<string>, id: JsNumber): (r: Reply<PatientPage>)
    ensures id.NumNaN? ==> r == Fail(400, "bad id")
    ensures r.Fail? ==> r == Fail(400, "bad id") || r == Fail(404, "not found")
    ensures r.Done? <==> exists p :: p in db.patients && SameNumber(p.id, id)
    ensures id.Num? && (forall p :: p in db.patients ==> !SameNumber(p.id, id)) ==> r == Fail(404, "not found")
    ensures r.Done? ==>
      && r.status == 200
      && SameNumber(r.body.patient.id, id)
      && SortedByDateDesc(r.body.appointments)
      && (forall a :: a in r.body.appointments <==>
           a in db.appointments && a.patientId == r.body.patient.id && HasDoctor(db.doctors, a.doctorId))
      && forall a :: multiset(r.body.appointments)[a] == (
           if a.patientId == r.body.patient.id && HasDoctor(db.doctors, a.doctorId) then multiset(db.appointments)[a] else 0)
  {
    if id.NumNaN? then Fail(400, "bad id")
    else
      match PatientByNumber(db.patients, id)
      case None => Fail(404, "not found")
      case Some(p) =>
        var rows := AppointmentsOf(db.appointments, db.doctors, p.id);
        var sorted := SortByDateDesc(rows);
        assert forall a :: a in sorted <==> a in multiset(sorted);
        assert forall a :: a in rows <==> a in multiset(rows);
        Done(200, PatientPage(Info(p), sorted))
  }

  /** Anyone, signed in or not and whatever their role, reads any patient's
      record and history. */
  lemma GetPatientIgnoresSession(db: Db, c: Option<string>, d: Option<string>, id: JsNumber)
    ensures GetPatient(db, c, id) == GetPatient(db, d, id)
  {
  }

  // ---------------------------------------------------------- appointments

  /** The values bound to `INSERT INTO appointments (patient_id, doctor_id,
      date, notes, medications, allergies)`, as the handler passes them. */
  datatype Insert = Insert(
    patientId: Json,
    doctorId: Option<int>,
    date: Json,
    notes: Json,
    medications: Json,
    allergies: Json)

  /** `value || ''`. */
  function OrEmpty(v: Option<Json>): (r: Json)
    ensures Present(v) ==> r == v.value
    ensures !Present(v) ==> r == JStr("")
  {
    if Present(v) then v.value else JStr("")
  }

  const Forbidden := "forbidden"
  const PatientAndDateRequired := "patient_id and date required"

  /** The values the handler binds once `patient_id` and `date` are
      present: the session's doctor id, and `''` for a falsy optional text. */
  function BoundValues(v: Json, doctorId: Option<int>): Insert
    requires Present(Field(v, "patient_id")) && Present(Field(v, "date"))
  {
    Insert(Field(v, "patient_id").value, doctorId, Field(v, "date").value,
           OrEmpty(Field(v, "notes")), OrEmpty(Field(v, "medications")), OrEmpty(Field(v, "allergies")))
  }

  /** Whether `bind` accepts every value of the insert. */
  predicate InsertBindable(row: Insert) {
    Bindable(row.patientId) && Bindable(row.date)
    && Bindable(row.notes) && Bindable(row.medications) && Bindable(row.allergies)
  }

  /** POST /api/appointments. `lastRowId` is the id the database gives the
      new row. A cookie that is not a doctor's session is a 403; a falsy
      `patient_id` or `date` is a 400; a value `bind` refuses throws, a
      500; otherwise the row is inserted with the session's doctor id. */
  function CreateAppointment(cookie: Option<string>, body: Option<Json>, lastRowId: int): (r: (Reply<int>, Option<Insert>))
    ensures IsDoctor(cookie).None? ==> r == (Fail(403, Forbidden), None)
    ensures IsDoctor(cookie).Some? && body == Some(JNull) ==> r == (Fail(500, ServerError), None)
    ensures IsDoctor(cookie).Some? && body != Some(JNull)
      && !(Present(Field(BodyOrEmpty(body), "patient_id")) && Present(Field(BodyOrEmpty(body), "date")))
      ==> r == (Fail(400, PatientAndDateRequired), None)
    ensures IsDoctor(cookie).Some? && body != Some(JNull)
      && Present(Field(BodyOrEmpty(body), "patient_id")) && Present(Field(BodyOrEmpty(body), "date"))
      && !InsertBindable(BoundValues(BodyOrEmpty(body), IsDoctor(cookie).value.doctorId))
      ==> r == (Fail(500, ServerError), None)
    ensures r.1.Some? <==> r.0.Done?
    ensures r.0.Done? <==>
      && IsDoctor(cookie).Some? && body != Some(JNull)
      && Present(Field(BodyOrEmpty(body), "patient_id")) && Present(Field(BodyOrEmpty(body), "date"))
      && InsertBindable(BoundValues(BodyOrEmpty(body), IsDoctor(cookie).value.doctorId))
    ensures r.0.Done? ==>
      var v := BodyOrEmpty(body);
      && r.0 == Done(200, lastRowId)
      && r.1.value.doctorId == IsDoctor(cookie).value.doctorId
      && r.1.value.patientId == Field(v, "patient_id").value
      && r.1.value.date == Field(v, "date").value
      && r.1.value.notes == OrEmpty(Field(v, "notes"))
      && r.1.value.medications == OrEmpty(Field(v, "medications"))
      && r.1.value.allergies == OrEmpty(Field(v, "allergies"))
  {
    match IsDoctor(cookie)
    case None => (Fail(403, Forbidden), None)
    case Some(sess) =>
      var v := BodyOrEmpty(body);
      if v == JNull then (Fail(500, ServerError), None)
      else
        var patientId := Field(v, "patient_id");
        var date := Field(v, "date");
        if !Present(patientId) || !Present(date) then (Fail(400, PatientAndDateRequired), None)
        else
          var row := BoundValues(v, sess.doctorId);
          if !InsertBindable(row) then (Fail(500, ServerError), None)
          else (Done(200, lastRowId), Some(row))
  }

  /** The stored doctor is the session's, whatever `doctor_id` the body names. */
  lemma DoctorFromSession(cookie: Option<string>, f: map<string, Json>, doctor: Json, lastRowId: int)
    requires CreateAppointment(cookie, Some(JObj(f)), lastRowId).0.Done?
    ensures CreateAppointment(cookie, Some(JObj(f["doctor_id" := doctor])), lastRowId)
         == CreateAppointment(cookie, Some(JObj(f)), lastRowId)
    ensures CreateAppointment(cookie, Some(JObj(f)), lastRowId).1.value.doctorId
         == DecodeSession(cookie).value.doctorId
  {
    var g := f["doctor_id" := doctor];
    assert forall k :: k != "doctor_id" ==> Field(JObj(g), k) == Field(JObj(f), k);
  }

  /** Any encodable claim set with role `doctor` may create appointments:
      the cookie is not signed. */
  lemma ForgedDoctorCreates(c: Claims, f: map<string, Json>, lastRowId: int)
    requires Encodable(c) && c.role == "doctor"
    requires "patient_id" in f && Truthy(f["patient_id"]) && "date" in f && Truthy(f["date"])
    requires forall k :: k in f && k in {"patient_id", "date", "notes", "medications", "allergies"} ==> Bindable(f[k])
    ensures CreateAppointment(EncodeSession(c), Some(JObj(f)), lastRowId).0 == Done(200, lastRowId)
    ensures CreateAppointment(EncodeSession(c), Some(JObj(f)), lastRowId).1.value.doctorId == c.doctorId
  {
    ForgedDoctorCookie(c);
  }

  // ------------------------------------------------------------ ai summary

  /** The ownership check of the summary route: it refuses only a session
      whose role is `patient` and whose `patientId` is not the number
      asked for. The 401 Response `requireSession` returns for a missing
      session is truthy and has no role, so it passes. */
  predicate SummaryRefused(sess: SessionOrResponse, id: JsNumber) {
    RoleOf(sess) == Some("patient") &&
    !(sess.claims.patientId.Some? && SameNumber(sess.claims.patientId.value, id))
  }

  /** The appointments of a patient, oldest first:
      `SELECT ... FROM appointments WHERE patient_id = ? ORDER BY date ASC`. */
  function History(db: Db, patientId: int): (r: seq<Appointment>)
    ensures SortedByDate(r)
    ensures forall a :: a in r <==> a in db.appointments && a.patientId == patientId
    ensures multiset(r) == multiset(AppointmentsOfPatient(db.appointments, patientId))
  {
    var rows := AppointmentsOfPatient(db.appointments, patientId);
    var sorted := SortByDate(rows);
    assert forall a :: a in sorted <==> a in multiset(sorted);
    assert forall a :: a in rows <==> a in multiset(rows);
    sorted
  }

  /** POST /api/patients/:id/ai-summary: a NaN id is a 400, a patient asking
      about another patient a 403, an unknown patient a 404; otherwise the
      summary fields of the patient's history. */
  function AiSummary(db: Db, cookie: Option<string>, id: JsNumber): (r: Reply<Findings>)
    ensures id.NumNaN? ==> r == Fail(400, "bad id")
    ensures id.Num? && SummaryRefused(RequireSession(cookie), id) ==> r == Fail(403, Forbidden)
    ensures r.Fail? ==> r.status in {400, 403, 404}
    ensures id.Num? && !SummaryRefused(RequireSession(cookie), id)
      && (forall p :: p in db.patients ==> !SameNumber(p.id, id))
      ==> r == Fail(404, "not found")
    ensures r.Done? <==>
      && id.Num? && !SummaryRefused(RequireSession(cookie), id)
      && exists p :: p in db.patients && SameNumber(p.id, id)
    ensures r.Done? ==>
      var p := PatientByNumber(db.patients, id).value;
      && r.status == 200
      && r.body == Summarize(p, History(db, p.id))
  {
    var sess := RequireSession(cookie);
    if id.NumNaN? then Fail(400, "bad id")
    else if SummaryRefused(sess, id) then Fail(403, Forbidden)
    else
      match PatientByNumber(db.patients, id)
      case None => Fail(404, "not found")
      case Some(p) => Done(200, Summarize(p, History(db, p.id)))
  }

  /** A request without a session is not refused: it gets exactly what a
      doctor gets. */
  lemma SummaryWithoutSession(db: Db, cookie: Option<string>, doctor: Claims, id: JsNumber)
    requires DecodeSession(cookie).None?
    requires Encodable(doctor) && doctor.role == "doctor"
    ensures AiSummary(db, cookie, id) == AiSummary(db, EncodeSession(doctor), id)
    ensures AiSummary(db, cookie, id).status != 401
  {
    SessionRoundTrip(doctor);
  }

  /** The summary route with the guard `requireSession` evidently intends:
      a request whose cookie does not decode is answered 401, and a
      signed-in request gets what `AiSummary` gives it. */
  function GuardedSummary(db: Db, cookie: Option<string>, id: JsNumber): (r: Reply<Findings>)
    ensures DecodeSession(cookie).None? ==> r == Fail(401, "unauthorized")
    ensures DecodeSession(cookie).Some? ==> r == AiSummary(db, cookie, id)
  {
    match RequireSession(cookie)
    case Unauthorized => Fail(401, "unauthorized")
    case Session(_) => AiSummary(db, cookie, id)
  }

  /** Behind the guard only a signed-in user reads a summary, and a patient
      only their own. */
  lemma GuardedSummaryNeedsSession(db: Db, cookie: Option<string>, id: JsNumber)
    requires GuardedSummary(db, cookie, id).Done?
    ensures DecodeSession(cookie).Some?
    ensures DecodeSession(cookie).value.role == "patient" ==>
      DecodeSession(cookie).value.patientId.Some? && SameNumber(DecodeSession(cookie).value.patientId.value, id)
  {
  }

  /** A signed-in patient only reads the summary of their own patient row. */
  lemma PatientReadsOwnSummary(db: Db, cookie: Option<string>, id: JsNumber)
    requires DecodeSession(cookie).Some? && DecodeSession(cookie).value.role == "patient"
    requires AiSummary(db, cookie, id).Done?
    ensures DecodeSession(cookie).value.patientId.Some?
    ensures SameNumber(DecodeSession(cookie).value.patientId.value, id)
  {
  }

  /** The summary reports the number of the patient's appointments, the
      medications of the latest one, and "regular" engagement exactly for
      more than three visits. */
  lemma SummaryCounts(db: Db, cookie: Option<string>, id: JsNumber)
    requires AiSummary(db, cookie, id).Done?
    ensures var p := PatientByNumber(db.patients, id).value;
      var f := AiSummary(db, cookie, id).body;
      && f.visits == |AppointmentsOfPatient(db.appointments, p.id)|
      && (f.engagement == Regular <==> f.visits > 3)
      && (f.visits == 0 ==> f.medications == NoneDocumented && f.lastVisit == NoRecentVisits)
  {
    var p := PatientByNumber(db.patients, id).value;
    var h := History(db, p.id);
    assert |h| == |multiset(h)|;
    assert |AppointmentsOfPatient(db.appointments, p.id)| == |multiset(AppointmentsOfPatient(db.appointments, p.id))|;
  }
}

=== FILE: signup.dfy ===
/** The sign-up form's submit handler
    (doctorai-connect/frontend/src/pages/Signup.jsx): three checks in a
    fixed order, the first failing one setting the error text and sending
    nothing; otherwise the request payload, and after the reply the page to
    navigate to. */
module Signup {
  import opened Optional
  import opened Strings
  import opened JsValues

  /** The controlled form fields; every input holds a string. */
  datatype Form = Form(
    email: string,
    password: string,
    confirmPassword: string,
    name: string,
    role: string,
    fullName: string,
    dob: string,
    specialization: string,
    doctorId: string)

  /** The body posted to `/api/signup`; `doctorId` None stands for `null`. */
  datatype SignupData = SignupData(
    email: string,
    password: string,
    name: string,
    role: string,
    fullName: string,
    dob: string,
    specialization: string,
    doctorId: Option<JsInt>)

  datatype Submission = Rejected(error: string) | Send(data: SignupData)

  const PasswordsDiffer := "Passwords do not match"
  const PasswordTooShort := "Password must be at least 6 characters"
  const DoctorMissing := "Please select a doctor"

  /** The first failing check, in the handler's order. The length is the
      JavaScript `length`, counted in UTF-16 code units. */
  function FirstProblem(f: Form): (e: Option<string>)
    ensures f.password != f.confirmPassword ==> e == Some(PasswordsDiffer)
    ensures e == Some(PasswordTooShort) <==>
      f.password == f.confirmPassword && Utf16Length(f.password) < 6
    ensures e == Some(DoctorMissing) <==>
      f.password == f.confirmPassword && Utf16Length(f.password) >= 6 && f.role == "patient" && f.doctorId == ""
    ensures e.None? <==>
      f.password == f.confirmPassword && Utf16Length(f.password) >= 6 && (f.role != "patient" || f.doctorId != "")
  {
    if f.password != f.confirmPassword then Some(PasswordsDiffer)
    else if Utf16Length(f.password) < 6 then Some(PasswordTooShort)
    else if f.role == "patient" && f.doctorId == "" then Some(DoctorMissing)
    else None
  }

  /** `signupData`: `fullName` falls back to `name` when empty, `doctorId`
      is `parseInt` of a non-empty selection and `null` otherwise; the
      other fields are copied. */
  function Payload(f: Form): (d: SignupData)
    ensures d.email == f.email && d.password == f.password && d.name == f.name && d.role == f.role
    ensures d.dob == f.dob && d.specialization == f.specialization
    ensures d.fullName == (if f.fullName != "" then f.fullName else f.name)
    ensures d.doctorId.None? <==> f.doctorId == ""
    ensures d.doctorId.Some? ==> d.doctorId.value == ParseInt(f.doctorId)
  {
    SignupData(
      f.email, f.password, f.name, f.role,
      if f.fullName != "" then f.fullName else f.name,
      f.dob, f.specialization,
      if f.doctorId != "" then Some(ParseInt(f.doctorId)) else None)
  }

  /** `submit`: the error of the first failing check, or the payload sent. */
  function Submit(f: Form): (r: Submission)
    ensures r.Rejected? <==> FirstProblem(f).Some?
    ensures r.Rejected? ==> r.error == FirstProblem(f).value
    ensures r.Send? ==> r.data == Payload(f)
  {
    match FirstProblem(f)
    case Some(e) => Rejected(e)
    case None => Send(Payload(f))
  }

  /** A mismatch is reported first, whatever else is wrong. */
  lemma MismatchFirst(f: Form)
    requires f.password != f.confirmPassword
    ensures Submit(f) == Rejected(PasswordsDiffer)
  {
  }

  /** The form is sent exactly when the passwords match, the password has
      at least six code units, and a patient has picked a doctor. */
  lemma SubmitSends(f: Form)
    ensures Submit(f).Send? <==>
      f.password == f.confirmPassword && Utf16Length(f.password) >= 6
      && (f.role != "patient" || f.doctorId != "")
  {
  }

  /** A doctor never needs a doctor selection: any valid password is enough. */
  lemma DoctorNeedsNoDoctor(f: Form)
    requires f.role == "doctor" && f.password == f.confirmPassword && |f.password| >= 6
    ensures Submit(f).Send?
  {
  }

  /** A doctor selection the form offers, a decimal id, reaches the server
      as that number. */
  lemma SelectedDoctorId(f: Form, id: int)
    requires f.doctorId == IntToDecimal(id)
    ensures Payload(f).doctorId == Some(Int(id))
  {
    ParseIntDecimal(id);
    assert f.doctorId[0] == IntToDecimal(id)[0];
  }

  /** The server's reply: the created user's role, or an error whose
      `error` text may be absent. */
  datatype SignupReply = Created(role: string) | Refused(error: Option<string>)

  datatype AfterSubmit = Navigate(path: string) | ShowError(message: string)

  /** After the reply: a doctor goes to `/doctor`, anyone else to
      `/patient`; a refusal shows the server's error text, or `Signup
      failed` when it has none. */
  function AfterReply(reply: SignupReply): (a: AfterSubmit)
    ensures a.Navigate? <==> reply.Created?
    ensures a.Navigate? ==> (a.path == "/doctor" <==> reply.role == "doctor")
    ensures a.Navigate? ==> a.path in {"/doctor", "/patient"}
    ensures a.ShowError? ==> a.message != ""
    ensures reply.Refused? && reply.error.Some? && reply.error.value != "" ==> a == ShowError(reply.error.value)
    ensures reply.Refused? && (reply.error.None? || reply.error.value == "") ==> a == ShowError("Signup failed")
  {
    match reply
    case Created(role) => if role == "doctor" then Navigate("/doctor") else Navigate("/patient")
    case Refused(error) =>
      if error.Some? && error.value != "" then ShowError(error.value) else ShowError("Signup failed")
  }
}

=== FILE: strings.dfy ===
/** String helpers shared by both backends and the frontend: JavaScript's
    `split` on a one-character separator and its inverse `join`, substring
    search, decimal rendering of integers, UTF-16 length and the lower-casing
    used by the chat classifier. */
module Strings {

  /** True iff `c` does not occur in `s`. */
  predicate Free(s: string, c: char) {
    forall i :: 0 <= i < |s| ==> s[i] != c
  }

  /** `parts.join(sep)`: the parts with one separator between neighbours. */
  function Join(parts: seq<string>, sep: char): string
    requires |parts| >= 1
  {
    if |parts| == 1 then parts[0] else parts[0] + ([sep] + Join(parts[1..], sep))
  }

  /** `s.split(sep)` for a one-character separator: always at least one part,
      no part contains the separator, and joining the parts gives `s` back. */
  function Split(s: string, sep: char): (parts: seq<string>)
    ensures |parts| >= 1
    ensures forall i :: 0 <= i < |parts| ==> Free(parts[i], sep)
    ensures Join(parts, sep) == s
  {
    if |s| == 0 then [""]
    else
      var tail := Split(s[1..], sep);
      if s[0] == sep then [""] + tail
      else [[s[0]] + tail[0]] + tail[1..]
  }

  /** Splitting a string that starts with a separator-free part `a` and one
      separator gives `a` followed by the parts of the remainder. */
  lemma {:induction false} SplitCons(a: string, sep: char, b: string)
    requires Free(a, sep)
    ensures Split(a + ([sep] + b), sep) == [a] + Split(b, sep)
  {
    if |a| == 0 {
      assert a + ([sep] + b) == [sep] + b;
      assert ([sep] + b)[1..] == b;
    } else {
      var s := a + ([sep] + b);
      assert s[1..] == a[1..] + ([sep] + b);
      SplitCons(a[1..], sep, b);
      assert [a[0]] + a[1..] == a;
    }
  }

  /** `split` is a left inverse of `join` when no part holds the separator. */
  lemma {:induction false} SplitJoin(parts: seq<string>, sep: char)
    requires |parts| >= 1
    requires forall i :: 0 <= i < |parts| ==> Free(parts[i], sep)
    ensures Split(Join(parts, sep), sep) == parts
  {
    if |parts| == 1 {
      SplitFree(parts[0], sep);
    } else {
      SplitJoin(parts[1..], sep);
      SplitCons(parts[0], sep, Join(parts[1..], sep));
    }
  }

  /** A separator-free string splits into itself alone. */
  lemma {:induction false} SplitFree(s: string, sep: char)
    requires Free(s, sep)
    ensures Split(s, sep) == [s]
  {
    if |s| > 0 {
      SplitFree(s[1..], sep);
      assert [s[0]] + s[1..] == s;
    }
  }

  /** `parts.join(sep)` for a separator string; an empty list joins to `""`. */
  function JoinWith(parts: seq<string>, sep: string): string {
    if |parts| == 0 then ""
    else if |parts| == 1 then parts[0]
    else parts[0] + sep + JoinWith(parts[1..], sep)
  }

  /** `s.startsWith(p)`. */
  predicate IsPrefix(p: string, s: string) {
    |p| <= |s| && s[..|p|] == p
  }

  /** `s.includes(sub)`: `sub` occurs at some position of `s`. */
  predicate Contains(s: string, sub: string) {
    exists i :: 0 <= i <= |s| - |sub| && IsPrefix(sub, s[i..])
  }

  /** A decimal digit character. */
  predicate IsDigit(c: char) {
    '0' <= c <= '9'
  }

  function DigitChar(d: nat): (c: char)
    requires d < 10
    ensures IsDigit(c) && c as int - '0' as int == d
  {
    ('0' as int + d) as char
  }

  /** The value of a string of decimal digits, most significant first. */
  function DecimalValue(ds: string): nat
    requires forall i :: 0 <= i < |ds| ==> IsDigit(ds[i])
  {
    if |ds| == 0 then 0
    else
      var last := ds[|ds| - 1];
      assert IsDigit(last);
      DecimalValue(ds[..|ds| - 1]) * 10 + (last as int - '0' as int)
  }

  /** The shortest decimal numeral of `n`, as JavaScript's `String(n)` writes
      it: non-empty, all digits, no leading zero, and denoting `n`. */
  function NatToDecimal(n: nat): (ds: string)
    ensures |ds| >= 1
    ensures forall i :: 0 <= i < |ds| ==> IsDigit(ds[i])
    ensures ds[0] == '0' ==> n == 0
    ensures DecimalValue(ds) == n
  {
    if n < 10 then [DigitChar(n)]
    else
      var ds := NatToDecimal(n / 10) + [DigitChar(n % 10)];
      assert ds[..|ds| - 1] == NatToDecimal(n / 10);
      ds
  }

  /** `String(i)` for an integer: a minus sign before the magnitude when negative. */
  function IntToDecimal(i: int): string {
    if i < 0 then "-" + NatToDecimal(-i) else NatToDecimal(i)
  }

  /** JavaScript's `length`: UTF-16 code units, so a character outside the
      Basic Multilingual Plane counts twice. */
  function Utf16Length(s: string): (n: nat)
    ensures |s| <= n <= 2 * |s|
  {
    if |s| == 0 then 0
    else (if s[0] as int > 0xFFFF then 2 else 1) + Utf16Length(s[1..])
  }

  /** Lower-casing of one character for the Latin-1 range: `A`-`Z` and the
      accented capitals `À`-`Þ` except `×` move up by 32. */
  function LowerChar(c: char): char {
    if 'A' <= c <= 'Z' || ('À' <= c <= 'Þ' && c != '×')
    then (c as int + 32) as char
    else c
  }

  function ToLower(s: string): (r: string)
    ensures |r| == |s|
    ensures forall i :: 0 <= i < |s| ==> r[i] == LowerChar(s[i])
  {
    if |s| == 0 then "" else [LowerChar(s[0])] + ToLower(s[1..])
  }
}

=== FILE: tables.dfy ===
/** The relational store both backends query, as tables of rows in rowid
    order. A point lookup with `.first()` returns the first matching row,
    and `ORDER BY date` sorts by SQLite's binary text collation, which for
    UTF-8 text is code point order. */
module Tables {
  import opened Optional

  datatype Patient = Patient(id: int, userId: int, fullName: string, dob: string)

  datatype Doctor = Doctor(id: int, userId: int, fullName: string, specialization: string)

  datatype Appointment = Appointment(
    id: int,
    patientId: int,
    doctorId: int,
    date: string,
    notes: string,
    medications: string,
    allergies: string)

  /** The position of the first row satisfying `matches`, if any. */
  function FirstIndex<T>(rows: seq<T>, matches: T -> bool): (r: Option<nat>)
    ensures r.Some? ==> r.value < |rows| && matches(rows[r.value])
    ensures r.Some? ==> forall j :: 0 <= j < r.value ==> !matches(rows[j])
    ensures r.None? ==> forall j :: 0 <= j < |rows| ==> !matches(rows[j])
  {
    if |rows| == 0 then None
    else if matches(rows[0]) then Some(0)
    else
      match FirstIndex(rows[1..], matches)
      case None => None
      case Some(k) => Some(k + 1)
  }

  /** `.first()` of a `SELECT ... WHERE`: the first row the condition
      holds for, and none only when it holds for no row. */
  function FirstRow<T>(rows: seq<T>, matches: T -> bool): (r: Option<T>)
    ensures r.Some? ==> r.value in rows && matches(r.value)
    ensures r.None? <==> forall x :: x in rows ==> !matches(x)
    ensures r.Some? ==> exists k :: 0 <= k < |rows| && rows[k] == r.value && forall j :: 0 <= j < k ==> !matches(rows[j])
  {
    match FirstIndex(rows, matches)
    case Some(k) => Some(rows[k])
    case None => None
  }

  /** `SELECT * FROM patients WHERE user_id = ?` with `.first()`. */
  function PatientOfUser(patients: seq<Patient>, userId: int): (r: Option<Patient>)
    ensures r.Some? ==> r.value in patients && r.value.userId == userId
    ensures r.None? <==> forall p :: p in patients ==> p.userId != userId
  {
    FirstRow(patients, (p: Patient) => p.userId == userId)
  }

  /** `SELECT ... FROM patients WHERE id = ?` with `.first()`. */
  function PatientById(patients: seq<Patient>, id: int): Option<Patient> {
    FirstRow(patients, (p: Patient) => p.id == id)
  }

  /** `patients.id` is the table's primary key: no two rows share it. */
  predicate UniqueIds(patients: seq<Patient>) {
    forall p, q :: p in patients && q in patients && p.id == q.id ==> p == q
  }

  /** `SELECT id FROM doctors WHERE user_id = ?` with `.first()`. */
  function DoctorOfUser(doctors: seq<Doctor>, userId: int): (r: Option<Doctor>)
    ensures r.Some? ==> r.value in doctors && r.value.userId == userId
    ensures r.None? <==> forall d :: d in doctors ==> d.userId != userId
  {
    FirstRow(doctors, (d: Doctor) => d.userId == userId)
  }

  /** Whether some doctor row has this id (the inner `JOIN doctors`). */
  predicate HasDoctor(doctors: seq<Doctor>, id: int) {
    exists d :: d in doctors && d.id == id
  }

  /** The rows of one patient whose doctor exists, in table order:
      `FROM appointments a JOIN doctors d ON a.doctor_id = d.id WHERE a.patient_id = ?`. */
  function AppointmentsOf(appts: seq<Appointment>, doctors: seq<Doctor>, patientId: int): (r: seq<Appointment>)
    ensures forall a :: a in r <==> a in appts && a.patientId == patientId && HasDoctor(doctors, a.doctorId)
    ensures forall a :: multiset(r)[a] == if a.patientId == patientId && HasDoctor(doctors, a.doctorId) then multiset(appts)[a] else 0
  {
    if |appts| == 0 then []
    else
      var rest := AppointmentsOf(appts[1..], doctors, patientId);
      var a := appts[0];
      assert forall b :: b in appts <==> b == a || b in appts[1..];
      assert appts == [a] + appts[1..];
      if a.patientId == patientId && HasDoctor(doctors, a.doctorId) then [a] + rest else rest
  }

  /** The rows of one patient, in table order, without a join. */
  function AppointmentsOfPatient(appts: seq<Appointment>, patientId: int): (r: seq<Appointment>)
    ensures forall a :: a in r <==> a in appts && a.patientId == patientId
    ensures forall a :: multiset(r)[a] == if a.patientId == patientId then multiset(appts)[a] else 0
  {
    if |appts| == 0 then []
    else
      var rest := AppointmentsOfPatient(appts[1..], patientId);
      var a := appts[0];
      assert forall b :: b in appts <==> b == a || b in appts[1..];
      assert appts == [a] + appts[1..];
      if a.patientId == patientId then [a] + rest else rest
  }

  /** Lexicographic order on code points: SQLite's BINARY collation. */
  predicate TextLe(a: string, b: string) {
    |a| == 0 || (|b| > 0 && (a[0] < b[0] || (a[0] == b[0] && TextLe(a[1..], b[1..]))))
  }

  lemma {:induction false} TextLeTotal(a: string, b: string)
    ensures TextLe(a, b) || TextLe(b, a)
  {
    if |a| > 0 && |b| > 0 && a[0] == b[0] {
      TextLeTotal(a[1..], b[1..]);
    }
  }

  lemma {:induction false} TextLeTransitive(a: string, b: string, c: string)
    requires TextLe(a, b) && TextLe(b, c)
    ensures TextLe(a, c)
  {
    if |a| > 0 && |b| > 0 && |c| > 0 && a[0] == b[0] && b[0] == c[0] {
      TextLeTransitive(a[1..], b[1..], c[1..]);
    }
  }

  /** Dates ascending, as `ORDER BY date ASC` leaves them. */
  predicate SortedByDate(s: seq<Appointment>) {
    forall i, j :: 0 <= i < j < |s| ==> TextLe(s[i].date, s[j].date)
  }

  /** Dates descending, as `ORDER BY date DESC` leaves them. */
  predicate SortedByDateDesc(s: seq<Appointment>) {
    forall i, j :: 0 <= i < j < |s| ==> TextLe(s[j].date, s[i].date)
  }

  /** A row no later than every row of a sorted list may go in front. */
  lemma PrependSorted(x: Appointment, s: seq<Appointment>)
    requires SortedByDate(s)
    requires forall j :: 0 <= j < |s| ==> TextLe(x.date, s[j].date)
    ensures SortedByDate([x] + s)
  {
    var r := [x] + s;
    forall i, j | 0 <= i < j < |r|
      ensures TextLe(r[i].date, r[j].date)
    {
      assert r[j] == s[j - 1];
      if i > 0 {
        assert r[i] == s[i - 1];
      }
    }
  }

  /** A row no later than the head of a sorted list is no later than any of it. */
  lemma BelowHead(x: Appointment, s: seq<Appointment>)
    requires SortedByDate(s) && |s| > 0 && TextLe(x.date, s[0].date)
    ensures forall j :: 0 <= j < |s| ==> TextLe(x.date, s[j].date)
  {
    forall j | 0 < j < |s|
      ensures TextLe(x.date, s[j].date)
    {
      TextLeTransitive(x.date, s[0].date, s[j].date);
    }
  }

  /** The head of a sorted list precedes every row of its tail with `a` added. */
  lemma HeadBelowInsert(s: seq<Appointment>, a: Appointment, rest: seq<Appointment>)
    requires SortedByDate(s) && |s| > 0 && TextLe(s[0].date, a.date)
    requires multiset(rest) == multiset(s[1..]) + multiset{a}
    ensures forall j :: 0 <= j < |rest| ==> TextLe(s[0].date, rest[j].date)
  {
    forall j | 0 <= j < |rest|
      ensures TextLe(s[0].date, rest[j].date)
    {
      assert rest[j] in multiset(rest);
      if rest[j] != a {
        assert rest[j] in multiset(s[1..]);
        var k :| 0 <= k < |s[1..]| && s[1..][k] == rest[j];
        assert s[k + 1] == rest[j];
      }
    }
  }

  function InsertByDate(a: Appointment, s: seq<Appointment>): (r: seq<Appointment>)
    requires SortedByDate(s)
    ensures SortedByDate(r)
    ensures multiset(r) == multiset(s) + multiset{a}
  {
    if |s| == 0 then [a]
    else if TextLe(a.date, s[0].date) then
      BelowHead(a, s);
      PrependSorted(a, s);
      [a] + s
    else
      TextLeTotal(a.date, s[0].date);
      var rest := InsertByDate(a, s[1..]);
      HeadBelowInsert(s, a, rest);
      PrependSorted(s[0], rest);
      assert s == [s[0]] + s[1..];
      [s[0]] + rest
  }

  /** `ORDER BY date ASC`: the same rows, ascending by date. */
  function SortByDate(s: seq<Appointment>): (r: seq<Appointment>)
    ensures SortedByDate(r)
    ensures multiset(r) == multiset(s)
  {
    if |s| == 0 then []
    else
      assert s == [s[0]] + s[1..];
      InsertByDate(s[0], SortByDate(s[1..]))
  }

  function Reverse<T>(s: seq<T>): (r: seq<T>)
    ensures |r| == |s| && forall i :: 0 <= i < |s| ==> r[i] == s[|s| - 1 - i]
  {
    if |s| == 0 then [] else Reverse(s[1..]) + [s[0]]
  }

  lemma ReverseMultiset<T>(s: seq<T>)
    ensures multiset(Reverse(s)) == multiset(s)
  {
    if |s| > 0 {
      ReverseMultiset(s[1..]);
      assert s == [s[0]] + s[1..];
    }
  }

  /** `ORDER BY date DESC`: the same rows, descending by date. */
  function SortByDateDesc(s: seq<Appointment>): (r: seq<Appointment>)
    ensures SortedByDateDesc(r)
    ensures multiset(r) == multiset(s)
  {
    var up := SortByDate(s);
    ReverseMultiset(up);
    Reverse(up)
  }

  /** Ids ascending, as `ORDER BY id` leaves patient rows. */
  predicate SortedById(s: seq<Patient>) {
    forall i, j :: 0 <= i < j < |s| ==> s[i].id <= s[j].id
  }

  /** A row with an id no larger than every id of a sorted list may go in front. */
  lemma PrependById(x: Patient, s: seq<Patient>)
    requires SortedById(s)
    requires forall j :: 0 <= j < |s| ==> x.id <= s[j].id
    ensures SortedById([x] + s)
  {
    var r := [x] + s;
    forall i, j | 0 <= i < j < |r|
      ensures r[i].id <= r[j].id
    {
      assert r[j] == s[j - 1];
      if i > 0 {
        assert r[i] == s[i - 1];
      }
    }
  }

  /** The head of a sorted list has an id no larger than any row of its tail
      with `p` added. */
  lemma HeadBelowInsertId(s: seq<Patient>, p: Patient, rest: seq<Patient>)
    requires SortedById(s) && |s| > 0 && s[0].id <= p.id
    requires multiset(rest) == multiset(s[1..]) + multiset{p}
    ensures forall j :: 0 <= j < |rest| ==> s[0].id <= rest[j].id
  {
    forall j | 0 <= j < |rest|
      ensures s[0].id <= rest[j].id
    {
      assert rest[j] in multiset(rest);
      if rest[j] != p {
        assert rest[j] in multiset(s[1..]);
        var k :| 0 <= k < |s[1..]| && s[1..][k] == rest[j];
        assert s[k + 1] == rest[j];
      }
    }
  }

  function InsertById(p: Patient, s: seq<Patient>): (r: seq<Patient>)
    requires SortedById(s)
    ensures SortedById(r)
    ensures multiset(r) == multiset(s) + multiset{p}
  {
    if |s| == 0 then [p]
    else if p.id <= s[0].id then
      PrependById(p, s);
      [p] + s
    else
      var rest := InsertById(p, s[1..]);
      HeadBelowInsertId(s, p, rest);
      PrependById(s[0], rest);
      assert s == [s[0]] + s[1..];
      [s[0]] + rest
  }

  /** `ORDER BY id`: the same rows, ascending by id. */
  function SortById(s: seq<Patient>): (r: seq<Patient>)
    ensures SortedById(r)
    ensures multiset(r) == multiset(s)
  {
    if |s| == 0 then []
    else
      assert s == [s[0]] + s[1..];
      InsertById(s[0], SortById(s[1..]))
  }

  /** Taking out the element at `k` removes one occurrence of it. */
  lemma MultisetRemoveAt<T>(s: seq<T>, k: nat)
    requires k < |s|
    ensures multiset(s) == multiset(s[..k] + s[k + 1..]) + multiset{s[k]}
  {
    assert s == s[..k] + [s[k]] + s[k + 1..];
  }

  /** One occurrence of the same element cancels on both sides. */
  lemma MultisetCancel<T>(x: multiset<T>, y: multiset<T>, e: T)
    requires x + multiset{e} == y + multiset{e}
    ensures x == y
  {
    assert x == (x + multiset{e}) - multiset{e};
    assert y == (y + multiset{e}) - multiset{e};
  }

  /** Where the first element of a permutation sits in the other, and what
      is left on both sides once it is taken out. */
  lemma MatchHead<T>(a: seq<T>, b: seq<T>) returns (k: nat)
    requires multiset(a) == multiset(b) && |a| > 0
    ensures k < |b| && b[k] == a[0]
    ensures multiset(a[1..]) == multiset(b[..k] + b[k + 1..])
  {
    assert a[0] in multiset(b);
    k :| 0 <= k < |b| && b[k] == a[0];
    MultisetRemoveAt(b, k);
    MultisetRemoveAt(a, 0);
    assert a[..0] + a[1..] == a[1..];
    MultisetCancel(multiset(a[1..]), multiset(b[..k] + b[k + 1..]), a[0]);
  }

  /** Taking the element at `k` out of a mapped sequence and out of its
      source keeps them in step, and removes one occurrence of the mapped
      element. */
  lemma MapRemoveAt<A, B>(b: seq<A>, fb: seq<B>, f: A -> B, k: nat) returns (b': seq<A>, fb': seq<B>)
    requires |fb| == |b| && forall i :: 0 <= i < |b| ==> fb[i] == f(b[i])
    requires k < |b|
    ensures b' == b[..k] + b[k + 1..]
    ensures |fb'| == |b'| && forall i :: 0 <= i < |b'| ==> fb'[i] == f(b'[i])
    ensures multiset(fb) == multiset(fb') + multiset{f(b[k])}
  {
    b', fb' := b[..k] + b[k + 1..], fb[..k] + fb[k + 1..];
    forall i | 0 <= i < |b'| ensures fb'[i] == f(b'[i]) {
      if i < k {
        assert fb'[i] == fb[i] && b'[i] == b[i];
      } else {
        assert fb'[i] == fb[i + 1] && b'[i] == b[i + 1];
      }
    }
    MultisetRemoveAt(fb, k);
  }

  /** Mapping `f` over two permutations of the same rows gives two
      permutations of the same results. */
  lemma {:induction false} MapPermutation<A, B>(a: seq<A>, b: seq<A>, fa: seq<B>, fb: seq<B>, f: A -> B)
    requires multiset(a) == multiset(b)
    requires |fa| == |a| && forall i :: 0 <= i < |a| ==> fa[i] == f(a[i])
    requires |fb| == |b| && forall i :: 0 <= i < |b| ==> fb[i] == f(b[i])
    ensures multiset(fa) == multiset(fb)
    decreases |a|
  {
    if |a| == 0 {
      assert |b| == |multiset(b)| == 0;
      assert fa == [] && fb == [];
    } else {
      var k := MatchHead(a, b);
      var b', fb' := MapRemoveAt(b, fb, f, k);
      var a', fa' := MapRemoveAt(a, fa, f, 0);
      assert a' == a[1..];
      MapPermutation(a', b', fa', fb', f);
    }
  }
}

=== FILE: token_worker.dfy ===
/** The token revision of the backend (backend/src/worker.ts). Login issues
    the cookie `token = demo-token-<id>-<role>`; a middleware on `/api/...`
    splits it on `-` and hands `{ userId, role }` to the handlers; handlers
    check the role and, for patients, ownership through the `patients.user_id`
    row. Every refusal after login is a 401. */
module TokenWorker {
  import opened Optional
  import opened Strings
  import opened JsValues
  import opened Base64
  import opened Tables
  import opened Http

  datatype User = User(id: int, email: string, passwordHash: string, role: string, name: string)

  datatype Store = Store(
    users: seq<User>,
    patients: seq<Patient>,
    doctors: seq<Doctor>,
    appointments: seq<Appointment>)

  // ---------------------------------------------------------------- token

  /** A token text with id part `idText`: `demo-token-${idText}-${role}`. */
  function TokenText(idText: string, role: string): string {
    "demo" + ("-" + ("token" + ("-" + (idText + ("-" + role)))))
  }

  /** The cookie value login writes: `demo-token-${user.id}-${user.role}`. */
  function MakeToken(userId: int, role: string): string {
    TokenText(IntToDecimal(userId), role)
  }

  /** What the middleware stores as `jwtPayload`. */
  datatype Payload = Payload(userId: JsInt, role: string)

  /** The middleware's reading of a token: exactly four `-`-separated parts,
      the first two `demo` and `token`; the id is `parseInt` of the third. */
  function ParseToken(token: string): Option<Payload> {
    var parts := Split(token, '-');
    if |parts| != 4 || parts[0] != "demo" || parts[1] != "token" then None
    else Some(Payload(ParseInt(parts[2]), parts[3]))
  }

  lemma DigitsFree(n: nat)
    ensures Free(NatToDecimal(n), '-')
  {
    var ds := NatToDecimal(n);
    forall i | 0 <= i < |ds|
      ensures ds[i] != '-'
    {
      assert IsDigit(ds[i]);
    }
  }

  /** A string splits into one part exactly when it has no separator. */
  lemma SplitSingle(s: string, sep: char)
    ensures |Split(s, sep)| == 1 <==> Free(s, sep)
  {
    if Free(s, sep) {
      SplitFree(s, sep);
    }
  }

  /** The fixed `demo` and `token` parts come first. */
  lemma PrefixParts(tail: string)
    ensures Split("demo" + ("-" + ("token" + ("-" + tail))), '-') == ["demo", "token"] + Split(tail, '-')
  {
    SplitCons("token", '-', tail);
    SplitCons("demo", '-', "token" + ("-" + tail));
  }

  /** A token with separator-free id text splits into the four parts login
      meant, followed by the pieces of the role. */
  lemma TextParts(idText: string, role: string)
    requires Free(idText, '-')
    ensures Split(TokenText(idText, role), '-') == ["demo", "token", idText] + Split(role, '-')
  {
    PrefixParts(idText + ("-" + role));
    SplitCons(idText, '-', role);
  }

  /** The id text of a negative id starts with `-`, which adds a part. */
  lemma NegativeParts(ds: string, role: string)
    requires Free(ds, '-')
    ensures |Split(TokenText("-" + ds, role), '-')| >= 5
  {
    var rest := ds + ("-" + role);
    SplitCons(ds, '-', role);
    assert "-" + ds + ("-" + role) == "" + ("-" + rest);
    SplitCons("", '-', rest);
    PrefixParts("-" + ds + ("-" + role));
  }

  /** The token round trip: the middleware accepts the token login wrote for
      a user exactly when the id is non-negative and the role has no `-`,
      and then reads back that id and role. */
  lemma TokenRoundTrip(userId: int, role: string)
    ensures ParseToken(MakeToken(userId, role)).Some? <==> userId >= 0 && Free(role, '-')
    ensures userId >= 0 && Free(role, '-') ==>
      ParseToken(MakeToken(userId, role)) == Some(Payload(Int(userId), role))
  {
    var n: nat := if userId < 0 then -userId else userId;
    var ds := NatToDecimal(n);
    DigitsFree(n);
    if userId < 0 {
      NegativeParts(ds, role);
    } else {
      TextParts(ds, role);
      SplitSingle(role, '-');
      if Free(role, '-') {
        TokenShapeAccepted(ds, role);
        ParseIntDecimal(userId);
      }
    }
  }

  /** Any token of the login shape with separator-free id text and role is
      accepted, whatever the id text says: its id is `parseInt` of it. */
  lemma TokenShapeAccepted(idText: string, role: string)
    requires Free(idText, '-') && Free(role, '-')
    ensures ParseToken(TokenText(idText, role)) == Some(Payload(ParseInt(idText), role))
  {
    TextParts(idText, role);
    SplitFree(role, '-');
  }

  lemma JoinFour(parts: seq<string>, sep: char)
    requires |parts| == 4
    ensures Join(parts, sep) == parts[0] + ([sep] + (parts[1] + ([sep] + (parts[2] + ([sep] + parts[3])))))
  {
    var tail := parts[1..];
    assert tail[1..] == parts[2..];
    assert parts[2..][1..] == [parts[3]];
    assert Join(parts[2..], sep) == parts[2] + ([sep] + parts[3]);
    assert Join(tail, sep) == parts[1] + ([sep] + Join(parts[2..], sep));
  }

  /** Every token the middleware accepts has the shape login writes, with
      separator-free id text and role; the id is `parseInt` of the id text,
      which may be NaN. Nothing else is checked. */
  lemma AcceptedTokenShape(token: string)
    requires ParseToken(token).Some?
    ensures exists idText ::
              && Free(idText, '-') && Free(ParseToken(token).value.role, '-')
              && token == TokenText(idText, ParseToken(token).value.role)
              && ParseToken(token).value.userId == ParseInt(idText)
  {
    var parts := Split(token, '-');
    JoinFour(parts, '-');
    assert token == TokenText(parts[2], parts[3]);
  }

  /** A hand-written token whose id text does not start like a number (for
      instance `demo-token-x-doctor`) authenticates with a NaN id and
      whatever separator-free role it names. */
  lemma ForgedToken(idText: string, role: string)
    requires Free(idText, '-') && Free(role, '-')
    requires |idText| > 0 && !IsJsSpace(idText[0]) && !IsDigit(idText[0]) && idText[0] != '+'
    ensures ParseToken(TokenText(idText, role)) == Some(Payload(NaN, role))
  {
    TokenShapeAccepted(idText, role);
    ParseIntNoDigit(idText);
  }

  // ----------------------------------------------------------- middleware

  /** The four paths the middleware lets through without a token. */
  predicate IsPublicPath(path: string) {
    path == "/api/health" || path == "/api/auth/login"
    || path == "/api/auth/logout" || path == "/api/admin/fix-seed-passwords"
  }

  datatype Gate = Skip | Authenticated(payload: Payload) | Rejected(error: string) {
    /** The reply a rejection sends. */
    function Refusal(): Reply<()>
      requires Rejected?
    {
      Fail(401, error)
    }
  }

  /** The `/api/...` middleware: public paths pass untouched; otherwise a
      missing or empty `token` cookie is 401 `Unauthorized`, a malformed one
      is 401 `Invalid token`, and a well-formed one becomes the payload. */
  function AuthMiddleware(path: string, cookie: Option<string>): (g: Gate)
    ensures g.Skip? <==> IsPublicPath(path)
    ensures !IsPublicPath(path) && (cookie.None? || cookie.value == "") ==> g == Rejected("Unauthorized")
    ensures !IsPublicPath(path) && cookie.Some? && cookie.value != "" ==>
      (g == Rejected("Invalid token") <==> ParseToken(cookie.value).None?)
    ensures g.Authenticated? ==> cookie.Some? && ParseToken(cookie.value) == Some(g.payload)
    ensures !IsPublicPath(path) && cookie.Some? && cookie.value != "" && ParseToken(cookie.value).Some? ==>
      g == Authenticated(ParseToken(cookie.value).value)
  {
    if IsPublicPath(path) then Skip
    else if cookie.None? || cookie.value == "" then Rejected("Unauthorized")
    else
      match ParseToken(cookie.value)
      case None => Rejected("Invalid token")
      case Some(p) => Authenticated(p)
  }

  /** The payload a handler sees after the middleware let the request in. */
  function PayloadOf(g: Gate): Option<Payload> {
    if g.Authenticated? then Some(g.payload) else None
  }

  // ------------------------------------------------------------ passwords

  /** `hashPassword`: `btoa(password + 'salt')`, None where `btoa` throws. */
  function HashPassword(password: string): (h: Option<string>)
    ensures h.Some? <==> Latin1(password)
  {
    Latin1Concat(password, "salt");
    Btoa(password + "salt")
  }

  /** `verifyPassword`: whether the hash matches; None where hashing throws. */
  function VerifyPassword(password: string, hash: string): Option<bool> {
    match HashPassword(password)
    case None => None
    case Some(h) => Some(h == hash)
  }

  /** A password verifies against its own hash. */
  lemma HashThenVerify(password: string)
    requires Latin1(password)
    ensures VerifyPassword(password, HashPassword(password).value) == Some(true)
  {
  }

  /** Equal hashes come from equal passwords: the hash is reversible. */
  lemma HashInjective(p: string, q: string)
    requires HashPassword(p).Some? && HashPassword(p) == HashPassword(q)
    ensures p == q
  {
    BtoaInjective(p + "salt", q + "salt");
    assert (p + "salt")[..|p|] == p;
    assert (q + "salt")[..|q|] == q;
  }

  /** The hash reveals the password: `atob` of it, minus the salt. */
  lemma HashReveals(p: string)
    requires Latin1(p)
    ensures Atob(HashPassword(p).value) == Some(p + "salt")
  {
    Latin1Concat(p, "salt");
    BtoaRoundTrip(p + "salt");
  }

  // ---------------------------------------------------------------- login

  datatype UserView = UserView(id: int, email: string, role: string, name: string)

  function View(u: User): UserView {
    UserView(u.id, u.email, u.role, u.name)
  }

  /** A successful login: the user echoed in the body and the cookie value. */
  datatype LoginOk = LoginOk(user: UserView, token: string)

  /** `loginSchema.parse(body)`: an object whose `email` is a string the
      e-mail check accepts and whose `password` is a non-empty string.
      `body` is None when the request text is not JSON. */
  function LoginFields(body: Option<Json>, isEmail: string -> bool): Option<(string, string)> {
    if body.None? || !body.value.JObj? then None
    else
      var f := body.value.fields;
      if "email" in f && f["email"].JStr? && isEmail(f["email"].s)
         && "password" in f && f["password"].JStr? && |f["password"].s| >= 1
      then Some((f["email"].s, f["password"].s))
      else None
  }

  /** `SELECT * FROM users WHERE email = ?` with `.first()`. */
  function UserByEmail(users: seq<User>, email: string): (r: Option<User>)
    ensures r.Some? ==> r.value in users && r.value.email == email
    ensures r.None? <==> forall u :: u in users ==> u.email != email
  {
    FirstRow(users, (u: User) => u.email == email)
  }

  /** The error text of the 400 reply. The source appends the thrown error's
      message, which is not modelled. */
  const InvalidRequest := "Invalid request: "

  /** POST /api/auth/login. A body that fails the schema, and a password
      `btoa` cannot hash, give 400; an unknown e-mail and a wrong password
      give the same 401; success returns the user and the token. */
  function Login(store: Store, body: Option<Json>, isEmail: string -> bool): (r: Reply<LoginOk>)
    ensures LoginFields(body, isEmail).None? ==> r == Fail(400, InvalidRequest)
    ensures r.Fail? ==> r == Fail(400, InvalidRequest) || r == Fail(401, "Invalid credentials")
    ensures r.Done? <==>
      LoginFields(body, isEmail).Some?
      && UserByEmail(store.users, LoginFields(body, isEmail).value.0).Some?
      && HashPassword(LoginFields(body, isEmail).value.1)
         == Some(UserByEmail(store.users, LoginFields(body, isEmail).value.0).value.passwordHash)
    ensures r.Done? ==>
      var u := UserByEmail(store.users, LoginFields(body, isEmail).value.0).value;
      r == Done(200, LoginOk(View(u), MakeToken(u.id, u.role)))
  {
    match LoginFields(body, isEmail)
    case None => Fail(400, InvalidRequest)
    case Some((email, password)) =>
      match UserByEmail(store.users, email)
      case None => Fail(401, "Invalid credentials")
      case Some(u) =>
        match VerifyPassword(password, u.passwordHash)
        case None => Fail(400, InvalidRequest)
        case Some(ok) =>
          if ok then Done(200, LoginOk(View(u), MakeToken(u.id, u.role)))
          else Fail(401, "Invalid credentials")
  }

  /** Login does not tell an unknown e-mail from a wrong Latin-1 password. */
  lemma NoAccountEnumeration(store: Store, isEmail: string -> bool, unknown: string, known: string, wrong: string)
    requires isEmail(unknown) && isEmail(known) && |wrong| >= 1 && Latin1(wrong)
    requires UserByEmail(store.users, unknown).None?
    requires UserByEmail(store.users, known).Some?
    requires HashPassword(wrong) != Some(UserByEmail(store.users, known).value.passwordHash)
    ensures Login(store, Some(Credentials(unknown, wrong)), isEmail)
         == Login(store, Some(Credentials(known, wrong)), isEmail)
         == Fail(401, "Invalid credentials")
  {
  }

  /** As written, a password `btoa` cannot hash tells the two apart: the
      unknown e-mail is refused with 401 before any hashing, while for a
      known e-mail the hashing throws and the `catch` answers 400. */
  lemma EncodingRevealsAccount(store: Store, isEmail: string -> bool, unknown: string, known: string, wrong: string)
    requires isEmail(unknown) && isEmail(known) && |wrong| >= 1 && !Latin1(wrong)
    requires UserByEmail(store.users, unknown).None?
    requires UserByEmail(store.users, known).Some?
    ensures Login(store, Some(Credentials(unknown, wrong)), isEmail) == Fail(401, "Invalid credentials")
    ensures Login(store, Some(Credentials(known, wrong)), isEmail) == Fail(400, InvalidRequest)
  {
  }

  /** Login with a password that cannot be hashed counted as a wrong one:
      the only 400 left is the schema's. */
  function LoginUniform(store: Store, body: Option<Json>, isEmail: string -> bool): (r: Reply<LoginOk>)
    ensures r == Fail(400, InvalidRequest) <==> LoginFields(body, isEmail).None?
    ensures r.Fail? ==> r == Fail(400, InvalidRequest) || r == Fail(401, "Invalid credentials")
    ensures r.Done? <==> Login(store, body, isEmail).Done?
    ensures r.Done? ==> r == Login(store, body, isEmail)
    ensures r != Login(store, body, isEmail) ==>
      && Login(store, body, isEmail) == Fail(400, InvalidRequest)
      && r == Fail(401, "Invalid credentials")
      && HashPassword(LoginFields(body, isEmail).value.1).None?
  {
    match LoginFields(body, isEmail)
    case None => Fail(400, InvalidRequest)
    case Some((email, password)) =>
      match UserByEmail(store.users, email)
      case None => Fail(401, "Invalid credentials")
      case Some(u) =>
        if VerifyPassword(password, u.passwordHash) == Some(true)
        then Done(200, LoginOk(View(u), MakeToken(u.id, u.role)))
        else Fail(401, "Invalid credentials")
  }

  /** With that correction an unknown e-mail and a wrong password share
      one 401 for every password, Latin-1 or not. */
  lemma NoAccountEnumerationUniform(store: Store, isEmail: string -> bool, unknown: string, known: string, wrong: string)
    requires isEmail(unknown) && isEmail(known) && |wrong| >= 1
    requires UserByEmail(store.users, unknown).None?
    requires UserByEmail(store.users, known).Some?
    requires HashPassword(wrong) != Some(UserByEmail(store.users, known).value.passwordHash)
    ensures LoginUniform(store, Some(Credentials(unknown, wrong)), isEmail)
         == LoginUniform(store, Some(Credentials(known, wrong)), isEmail)
         == Fail(401, "Invalid credentials")
  {
  }

  /** A token from a successful login authenticates every protected path
      as that user's id and role, provided the id is non-negative and the
      role has no `-`; otherwise the token is refused as invalid. */
  lemma LoginTokenAuthenticates(store: Store, body: Option<Json>, isEmail: string -> bool, path: string)
    requires Login(store, body, isEmail).Done?
    requires !IsPublicPath(path)
    ensures var ok := Login(store, body, isEmail).body;
      var g := AuthMiddleware(path, Some(ok.token));
      if ok.user.id >= 0 && Free(ok.user.role, '-')
      then g == Authenticated(Payload(Int(ok.user.id), ok.user.role))
      else g == Rejected("Invalid token")
  {
    var ok := Login(store, body, isEmail).body;
    TokenRoundTrip(ok.user.id, ok.user.role);
    assert |ok.token| > 0 by {
      assert ok.token[0] == 'd';
    }
  }

  // ------------------------------------------------------- role scoping

  /** The patient row of a payload's user: `SELECT * FROM patients WHERE
      user_id = ?`; a NaN user id matches no row. */
  function OwnPatient(store: Store, p: Payload): Option<Patient> {
    match p.userId
    case NaN => None
    case Int(u) => PatientOfUser(store.patients, u)
  }

  /** The ownership check of the three patient routes: a `patient` passes
      only when their own patient row exists and its id is the requested
      one; every other role passes. */
  predicate MayReadPatient(store: Store, p: Payload, patientId: JsInt) {
    p.role != "patient" || (OwnPatient(store, p).Some? && patientId == Int(OwnPatient(store, p).value.id))
  }

  /** A patient row together with its user's e-mail (`JOIN users`). */
  datatype PatientRecord = PatientRecord(patient: Patient, email: string)

  /** `SELECT * FROM users WHERE id = ?` with `.first()`. */
  function UserById(users: seq<User>, id: int): Option<User> {
    FirstRow(users, (u: User) => u.id == id)
  }

  /** `SELECT p.*, u.email FROM patients p JOIN users u ... WHERE p.id = ?`. */
  function PatientRecordById(store: Store, id: JsInt): (r: Option<PatientRecord>)
    ensures r.Some? ==> id == Int(r.value.patient.id) && r.value.patient in store.patients
    ensures r.Some? ==> exists u :: u in store.users && u.id == r.value.patient.userId && u.email == r.value.email
    ensures (forall p :: p in store.patients ==> id != Int(p.id)) ==> r.None?
    ensures UniqueIds(store.patients) ==>
      forall p :: p in store.patients && id == Int(p.id) && (exists u :: u in store.users && u.id == p.userId) ==>
        r.Some? && r.value.patient == p
  {
    match id
    case NaN => None
    case Int(i) =>
      match PatientById(store.patients, i)
      case None => None
      case Some(p) =>
        match UserById(store.users, p.userId)
        case None => None
        case Some(u) => Some(PatientRecord(p, u.email))
  }

  /** Every patient row whose user exists, in table order (the unfiltered join). */
  function AllPatientRecords(store: Store, patients: seq<Patient>): (r: seq<PatientRecord>)
    ensures |r| <= |patients|
    ensures forall x :: x in r ==> x.patient in patients
    ensures forall x :: x in r ==> exists u :: u in store.users && u.id == x.patient.userId && u.email == x.email
    ensures forall p :: p in patients && (exists u :: u in store.users && u.id == p.userId) ==>
      exists x :: x in r && x.patient == p
  {
    if |patients| == 0 then []
    else
      var rest := AllPatientRecords(store, patients[1..]);
      match UserById(store.users, patients[0].userId)
      case None => rest
      case Some(u) => [PatientRecord(patients[0], u.email)] + rest
  }

  /** GET /api/auth/me. */
  function Me(store: Store, payload: Option<Payload>): (r: Reply<UserView>)
    ensures payload.None? ==> r == Fail(401, "Unauthorized")
    ensures payload.Some? && r.Fail? ==> r == Fail(404, "User not found")
    ensures payload.Some? ==> (r.Done? <==> exists u :: u in store.users && payload.value.userId == Int(u.id))
    ensures r.Done? ==>
              && r.status == 200 && payload.Some? && payload.value.userId == Int(r.body.id)
              && exists u :: u in store.users && View(u) == r.body
  {
    match payload
    case None => Fail(401, "Unauthorized")
    case Some(p) =>
      match p.userId
      case NaN => Fail(404, "User not found")
      case Int(i) =>
        match UserById(store.users, i)
        case None => Fail(404, "User not found")
        case Some(u) => Done(200, View(u))
  }

  /** GET /api/patients: doctors only, else 401. */
  function ListPatients(store: Store, payload: Option<Payload>): (r: Reply<seq<PatientRecord>>)
    ensures r.Done? <==> payload.Some? && payload.value.role == "doctor"
    ensures r.Fail? ==> r == Fail(401, "Unauthorized")
    ensures r.Done? ==> r.status == 200 && r.body == AllPatientRecords(store, store.patients)
  {
    if payload.None? || payload.value.role != "doctor" then Fail(401, "Unauthorized")
    else Done(200, AllPatientRecords(store, store.patients))
  }

  /** GET /api/patients/:id. */
  function GetPatient(store: Store, payload: Option<Payload>, idParam: string): (r: Reply<PatientRecord>)
    ensures r == Fail(401, "Unauthorized") <==>
      payload.None? || !MayReadPatient(store, payload.value, ParseInt(idParam))
    ensures r.Done? ==>
              && r.status == 200 && ParseInt(idParam) == Int(r.body.patient.id)
              && r.body.patient in store.patients
    ensures r.Fail? ==> r.status == 401 || r == Fail(404, "Patient not found")
    ensures r.Done? <==>
      payload.Some? && MayReadPatient(store, payload.value, ParseInt(idParam))
      && PatientRecordById(store, ParseInt(idParam)).Some?
    ensures r.Done? ==> r.body == PatientRecordById(store, ParseInt(idParam)).value
  {
    var patientId := ParseInt(idParam);
    if payload.None? || !MayReadPatient(store, payload.value, patientId) then Fail(401, "Unauthorized")
    else
      match PatientRecordById(store, patientId)
      case None => Fail(404, "Patient not found")
      case Some(rec) => Done(200, rec)
  }

  /** The appointments of a patient whose doctor exists, newest first. */
  function PatientHistory(store: Store, patientId: JsInt): (r: seq<Appointment>)
    ensures SortedByDateDesc(r)
    ensures forall a :: a in r <==>
      a in store.appointments && patientId == Int(a.patientId) && HasDoctor(store.doctors, a.doctorId)
    ensures forall a :: multiset(r)[a] == (
                 if patientId == Int(a.patientId) && HasDoctor(store.doctors, a.doctorId) then multiset(store.appointments)[a] else 0)
  {
    match patientId
    case NaN => []
    case Int(i) =>
      var rows := AppointmentsOf(store.appointments, store.doctors, i);
      var sorted := SortByDateDesc(rows);
      assert forall a :: a in sorted <==> a in multiset(sorted);
      assert forall a :: a in rows <==> a in multiset(rows);
      sorted
  }

  /** GET /api/patients/:id/appointments. */
  function GetAppointments(store: Store, payload: Option<Payload>, idParam: string): (r: Reply<seq<Appointment>>)
    ensures r.Fail? <==> payload.None? || !MayReadPatient(store, payload.value, ParseInt(idParam))
    ensures r.Fail? ==> r == Fail(401, "Unauthorized")
    ensures r.Done? ==> r.status == 200 && r.body == PatientHistory(store, ParseInt(idParam))
  {
    var patientId := ParseInt(idParam);
    if payload.None? || !MayReadPatient(store, payload.value, patientId) then Fail(401, "Unauthorized")
    else Done(200, PatientHistory(store, patientId))
  }

  // ---------------------------------------------------------- appointments

  /** The fields `appointmentSchema.parse` returns. */
  datatype NewAppointment = NewAppointment(
    patientId: int,
    doctorId: int,
    date: string,
    notes: Option<string>,
    medications: Option<string>,
    allergies: Option<string>)

  /** A required field: the value when present with the right type. */
  function RequiredInt(f: map<string, Json>, key: string): Option<int> {
    if key in f && f[key].JNum? then Some(f[key].n) else None
  }

  function RequiredString(f: map<string, Json>, key: string): Option<string> {
    if key in f && f[key].JStr? then Some(f[key].s) else None
  }

  /** An optional field: Some(None) when absent, Some(Some(v)) when present
      with the right type, None (a schema failure) otherwise. */
  function OptionalInt(f: map<string, Json>, key: string): Option<Option<int>> {
    if key !in f then Some(None)
    else if f[key].JNum? then Some(Some(f[key].n))
    else None
  }

  function OptionalString(f: map<string, Json>, key: string): Option<Option<string>> {
    if key !in f then Some(None)
    else if f[key].JStr? then Some(Some(f[key].s))
    else None
  }

  /** `appointmentSchema.parse(body)`. */
  function AppointmentFields(body: Option<Json>): Option<NewAppointment> {
    if body.None? || !body.value.JObj? then None
    else
      var f := body.value.fields;
      var patientId :- RequiredInt(f, "patient_id");
      var doctorId :- RequiredInt(f, "doctor_id");
      var date :- RequiredString(f, "date");
      var notes :- OptionalString(f, "notes");
      var medications :- OptionalString(f, "medications");
      var allergies :- OptionalString(f, "allergies");
      Some(NewAppointment(patientId, doctorId, date, notes, medications, allergies))
  }

  /** The stored row: absent text fields become `''`. */
  function RowOf(id: int, n: NewAppointment): (a: Appointment)
    ensures a.id == id && a.patientId == n.patientId && a.doctorId == n.doctorId && a.date == n.date
    ensures n.notes.None? ==> a.notes == ""
    ensures n.notes.Some? ==> a.notes == n.notes.value
    ensures n.medications.None? ==> a.medications == ""
    ensures n.medications.Some? ==> a.medications == n.medications.value
    ensures n.allergies.None? ==> a.allergies == ""
    ensures n.allergies.Some? ==> a.allergies == n.allergies.value
  {
    Appointment(id, n.patientId, n.doctorId, n.date, n.notes.GetOr(""), n.medications.GetOr(""), n.allergies.GetOr(""))
  }

  /** The 201 body: the new id and the parsed request fields. */
  datatype Created = Created(id: int, input: NewAppointment)

  /** POST /api/appointments: doctors only (401); a schema failure is 400;
      otherwise one row is appended whose `doctor_id` is the body's.
      `lastRowId` is the id the database gives the new row
      (`result.meta.last_row_id`). */
  function CreateAppointment(store: Store, payload: Option<Payload>, body: Option<Json>, lastRowId: int): (r: (Reply<Created>, Store))
    ensures payload.None? || payload.value.role != "doctor" ==> r == (Fail(401, "Unauthorized"), store)
    ensures payload.Some? && payload.value.role == "doctor" && AppointmentFields(body).None? ==>
      r == (Fail(400, "Invalid request"), store)
    ensures r.0.Done? <==> payload.Some? && payload.value.role == "doctor" && AppointmentFields(body).Some?
    ensures r.0.Done? ==>
      var n := AppointmentFields(body).value;
      && r.0 == Done(201, Created(lastRowId, n))
      && r.1 == store.(appointments := store.appointments + [RowOf(lastRowId, n)])
  {
    if payload.None? || payload.value.role != "doctor" then (Fail(401, "Unauthorized"), store)
    else
      match AppointmentFields(body)
      case None => (Fail(400, "Invalid request"), store)
      case Some(n) =>
        (Done(201, Created(lastRowId, n)), store.(appointments := store.appointments + [RowOf(lastRowId, n)]))
  }

  /** The doctor named in the stored row is the body's `doctor_id`, whoever
      the calling doctor is. */
  lemma CreateTakesDoctorFromBody(store: Store, p: Payload, q: Payload, body: Option<Json>, lastRowId: int)
    requires p.role == "doctor" && q.role == "doctor"
    requires AppointmentFields(body).Some?
    ensures CreateAppointment(store, Some(p), body, lastRowId) == CreateAppointment(store, Some(q), body, lastRowId)
    ensures Last(CreateAppointment(store, Some(p), body, lastRowId).1.appointments).doctorId
         == AppointmentFields(body).value.doctorId
  {
  }

  function Last<T>(s: seq<T>): T
    requires |s| > 0
  {
    s[|s| - 1]
  }

  /** The fields of `appointmentSchema.partial().parse(body)`. */
  datatype Patch = Patch(
    patientId: Option<int>,
    doctorId: Option<int>,
    date: Option<string>,
    notes: Option<string>,
    medications: Option<string>,
    allergies: Option<string>)

  function PatchFields(body: Option<Json>): Option<Patch> {
    if body.None? || !body.value.JObj? then None
    else
      var f := body.value.fields;
      var patientId :- OptionalInt(f, "patient_id");
      var doctorId :- OptionalInt(f, "doctor_id");
      var date :- OptionalString(f, "date");
      var notes :- OptionalString(f, "notes");
      var medications :- OptionalString(f, "medications");
      var allergies :- OptionalString(f, "allergies");
      Some(Patch(patientId, doctorId, date, notes, medications, allergies))
  }

  /** `COALESCE(?, column)` for every column: a field present in the patch
      replaces the stored value, an absent one keeps it. */
  function Merge(a: Appointment, p: Patch): Appointment {
    Appointment(
      a.id,
      p.patientId.GetOr(a.patientId),
      p.doctorId.GetOr(a.doctorId),
      p.date.GetOr(a.date),
      p.notes.GetOr(a.notes),
      p.medications.GetOr(a.medications),
      p.allergies.GetOr(a.allergies))
  }

  /** Merging keeps the id; each field comes from the patch exactly when
      the patch carries it. */
  lemma MergeFields(a: Appointment, p: Patch)
    ensures Merge(a, p).id == a.id
    ensures p.patientId.None? ==> Merge(a, p).patientId == a.patientId
    ensures p.patientId.Some? ==> Merge(a, p).patientId == p.patientId.value
    ensures p.doctorId.None? ==> Merge(a, p).doctorId == a.doctorId
    ensures p.doctorId.Some? ==> Merge(a, p).doctorId == p.doctorId.value
    ensures p.date.None? ==> Merge(a, p).date == a.date
    ensures p.date.Some? ==> Merge(a, p).date == p.date.value
    ensures p.notes.None? ==> Merge(a, p).notes == a.notes
    ensures p.notes.Some? ==> Merge(a, p).notes == p.notes.value
    ensures p.medications.None? ==> Merge(a, p).medications == a.medications
    ensures p.medications.Some? ==> Merge(a, p).medications == p.medications.value
    ensures p.allergies.None? ==> Merge(a, p).allergies == a.allergies
    ensures p.allergies.Some? ==> Merge(a, p).allergies == p.allergies.value
    ensures Merge(a, Patch(None, None, None, None, None, None)) == a
    ensures Merge(Merge(a, p), p) == Merge(a, p)
  {
  }

  /** `UPDATE appointments SET ... WHERE id = ?`: the matching rows are
      merged, every other row is unchanged; a NaN id matches nothing. */
  function UpdateRows(rows: seq<Appointment>, id: JsInt, p: Patch): (r: seq<Appointment>)
    ensures |r| == |rows|
    ensures forall i :: 0 <= i < |rows| ==>
      r[i] == (if id == Int(rows[i].id) then Merge(rows[i], p) else rows[i])
  {
    if |rows| == 0 then []
    else [if id == Int(rows[0].id) then Merge(rows[0], p) else rows[0]] + UpdateRows(rows[1..], id, p)
  }

  /** PUT /api/appointments/:id: doctors only (401); a schema failure is
      400; otherwise the merge, answered with `Appointment updated` whether
      or not a row has that id. */
  function UpdateAppointment(store: Store, payload: Option<Payload>, idParam: string, body: Option<Json>): (r: (Reply<string>, Store))
    ensures payload.None? || payload.value.role != "doctor" ==> r == (Fail(401, "Unauthorized"), store)
    ensures r.0.Fail? ==> r.1 == store
    ensures r.0.Done? <==> payload.Some? && payload.value.role == "doctor" && PatchFields(body).Some?
    ensures payload.Some? && payload.value.role == "doctor" && PatchFields(body).None? ==>
      r.0 == Fail(400, "Invalid request")
    ensures r.0.Done? ==>
              && r.0 == Done(200, "Appointment updated")
              && r.1 == store.(appointments := UpdateRows(store.appointments, ParseInt(idParam), PatchFields(body).value))
  {
    if payload.None? || payload.value.role != "doctor" then (Fail(401, "Unauthorized"), store)
    else
      match PatchFields(body)
      case None => (Fail(400, "Invalid request"), store)
      case Some(p) =>
        (Done(200, "Appointment updated"),
         store.(appointments := UpdateRows(store.appointments, ParseInt(idParam), p)))
  }

  /** A patch that carries every column. */
  predicate Complete(p: Patch) {
    p.patientId.Some? && p.doctorId.Some? && p.date.Some?
    && p.notes.Some? && p.medications.Some? && p.allergies.Some?
  }

  /** The update route as written: an absent field of the patch is bound as
      `undefined`, which D1 refuses with a type error, so the `catch`
      answers 400 unless the patch carries every column. */
  function UpdateAppointmentAsWritten(store: Store, payload: Option<Payload>, idParam: string, body: Option<Json>): (r: (Reply<string>, Store))
    ensures payload.None? || payload.value.role != "doctor" ==> r == (Fail(401, "Unauthorized"), store)
    ensures r.0.Fail? ==> r.1 == store
    ensures r.0.Done? <==>
      payload.Some? && payload.value.role == "doctor" && PatchFields(body).Some? && Complete(PatchFields(body).value)
    ensures r.0.Done? ==> r == UpdateAppointment(store, payload, idParam, body)
  {
    if payload.None? || payload.value.role != "doctor" then (Fail(401, "Unauthorized"), store)
    else
      match PatchFields(body)
      case None => (Fail(400, "Invalid request"), store)
      case Some(p) =>
        if !Complete(p) then (Fail(400, "Invalid request"), store)
        else
          (Done(200, "Appointment updated"),
           store.(appointments := UpdateRows(store.appointments, ParseInt(idParam), p)))
  }

  /** The discrepancy: a patch naming only the notes is refused as written,
      where the route that binds an absent field as NULL keeps every other
      column through `COALESCE`. */
  lemma PartialPatchAsWrittenFails(store: Store, payload: Payload, idParam: string, notes: string)
    requires payload.role == "doctor"
    ensures var body := Some(JObj(map["notes" := JStr(notes)]));
      && UpdateAppointmentAsWritten(store, Some(payload), idParam, body) == (Fail(400, "Invalid request"), store)
      && UpdateAppointment(store, Some(payload), idParam, body)
         == (Done(200, "Appointment updated"),
             store.(appointments := UpdateRows(store.appointments, ParseInt(idParam), Patch(None, None, None, Some(notes), None, None))))
  {
    var f := map["notes" := JStr(notes)];
    assert "patient_id" !in f && "doctor_id" !in f && "date" !in f;
    assert "medications" !in f && "allergies" !in f && "notes" in f;
    assert PatchFields(Some(JObj(f))) == Some(Patch(None, None, None, Some(notes), None, None));
  }

  /** Updating an id no row has changes nothing and still reports success. */
  lemma UpdateMissingRow(store: Store, payload: Payload, id: nat, body: Option<Json>)
    requires payload.role == "doctor" && PatchFields(body).Some?
    requires forall a :: a in store.appointments ==> a.id != id
    ensures UpdateAppointment(store, Some(payload), NatToDecimal(id), body)
         == (Done(200, "Appointment updated"), store)
  {
    ParseIntDecimal(id);
    var rows := store.appointments;
    var r := UpdateRows(rows, Int(id), PatchFields(body).value);
    assert r == rows;
  }

  // ------------------------------------------------------------ ai summary

  /** The patient data sent to the model and echoed in the reply. */
  datatype PatientData = PatientData(name: string, dob: string, appointments: seq<Appointment>)

  datatype Summary = Summary(summary: string, patient: PatientData)

  /** GET /api/patients/:id/ai-summary. `ai` is the Workers AI reply, None
      when the call fails. */
  function AiSummary(store: Store, payload: Option<Payload>, idParam: string, ai: Option<string>): (r: Reply<Summary>)
    ensures r == Fail(401, "Unauthorized") <==>
      payload.None? || !MayReadPatient(store, payload.value, ParseInt(idParam))
    ensures r.Done? ==>
              && r.status == 200 && ai == Some(r.body.summary)
              && r.body.patient.appointments == PatientHistory(store, ParseInt(idParam))
    ensures r.Fail? ==> r.status == 401 || r.status == 404 || r.status == 500
    ensures r.Done? <==>
      payload.Some? && MayReadPatient(store, payload.value, ParseInt(idParam))
      && PatientRecordById(store, ParseInt(idParam)).Some? && ai.Some?
    ensures r == Fail(404, "Patient not found") <==>
      payload.Some? && MayReadPatient(store, payload.value, ParseInt(idParam))
      && PatientRecordById(store, ParseInt(idParam)).None?
  {
    var patientId := ParseInt(idParam);
    if payload.None? || !MayReadPatient(store, payload.value, patientId) then Fail(401, "Unauthorized")
    else
      match PatientRecordById(store, patientId)
      case None => Fail(404, "Patient not found")
      case Some(rec) =>
        match ai
        case None => Fail(500, "Failed to generate AI summary")
        case Some(text) =>
          Done(200, Summary(text, PatientData(rec.patient.fullName, rec.patient.dob, PatientHistory(store, patientId))))
  }

  /** What a handler holds after `.all()`: D1 resolves it to a result
      object whose `results` field holds the rows; only a bare array of
      rows has a `map` method. */
  datatype Rows = RowArray(rows: seq<Appointment>) | ResultObject(results: seq<Appointment>)

  /** `value.map(...)`: the rows of an array, None where `map` is missing
      and the call throws. */
  function MapRows(v: Rows): (r: Option<seq<Appointment>>)
    ensures r.Some? <==> v.RowArray?
  {
    match v
    case RowArray(rows) => Some(rows)
    case ResultObject(_) => None
  }

  /** The summary route as written: it calls `map` on the `.all()` result
      object itself, so once the patient is found the `catch` always
      answers 500, whatever the model would have said. */
  function AiSummaryAsWritten(store: Store, payload: Option<Payload>, idParam: string, ai: Option<string>): (r: Reply<Summary>)
    ensures r.Fail?
  {
    var patientId := ParseInt(idParam);
    if payload.None? || !MayReadPatient(store, payload.value, patientId) then Fail(401, "Unauthorized")
    else
      match PatientRecordById(store, patientId)
      case None => Fail(404, "Patient not found")
      case Some(rec) =>
        match MapRows(ResultObject(PatientHistory(store, patientId)))
        case None => Fail(500, "Failed to generate AI summary")
        case Some(rows) =>
          match ai
          case None => Fail(500, "Failed to generate AI summary")
          case Some(text) => Done(200, Summary(text, PatientData(rec.patient.fullName, rec.patient.dob, rows)))
  }

  /** The discrepancy: for a permitted request about an existing patient
      with the model answering, the route as written fails with 500 where
      the corrected route (mapping over `results`) answers 200. */
  lemma SummaryAsWrittenFails(store: Store, payload: Payload, idParam: string, text: string)
    requires MayReadPatient(store, payload, ParseInt(idParam))
    requires PatientRecordById(store, ParseInt(idParam)).Some?
    ensures AiSummaryAsWritten(store, Some(payload), idParam, Some(text)) == Fail(500, "Failed to generate AI summary")
    ensures AiSummary(store, Some(payload), idParam, Some(text)).Done?
    ensures MapRows(RowArray(ResultObject(PatientHistory(store, ParseInt(idParam))).results))
         == Some(PatientHistory(store, ParseInt(idParam)))
  {
  }

  /** A patient never reads another patient's record, history or summary:
      all three routes answer 401 when the requested id is not their own. */
  lemma PatientConfined(store: Store, p: Payload, idParam: string, ai: Option<string>)
    requires p.role == "patient"
    requires OwnPatient(store, p).None? || ParseInt(idParam) != Int(OwnPatient(store, p).value.id)
    ensures GetPatient(store, Some(p), idParam) == Fail(401, "Unauthorized")
    ensures GetAppointments(store, Some(p), idParam) == Fail(401, "Unauthorized")
    ensures AiSummary(store, Some(p), idParam, ai) == Fail(401, "Unauthorized")
  {
  }

  /** Any role other than `patient` passes the ownership check, including
      roles no account has, which a hand-made token can carry. */
  lemma NonPatientUnrestricted(store: Store, p: Payload, idParam: string)
    requires p.role != "patient"
    ensures GetAppointments(store, Some(p), idParam).Done?
    ensures GetPatient(store, Some(p), idParam).Done? <==> PatientRecordById(store, ParseInt(idParam)).Some?
  {
  }
}

=== FILE: visit_summary.dfy ===
/** The deterministic part of the base64-JSON backend's "AI" summary
    (doctorai-connect/backend/src/worker.js): from a patient's appointments,
    oldest first, it derives the visit count, the last visit, the current
    medications, the distinct known allergies and an engagement label. The
    HTML text around these fields is not modelled. */
module VisitSummary {
  import opened Optional
  import opened Strings
  import opened Tables

  const NoneDocumented := "None documented"
  const NoRecentVisits := "No recent visits"

  /** The three assessment paragraphs: `regular`, `intermittent`, or the
      limited-history text when there is no appointment. */
  datatype Engagement = Regular | Intermittent | Limited

  /** The values the summary text is built from. */
  datatype Findings = Findings(
    name: string,
    visits: nat,
    lastVisit: string,
    medications: string,
    allergies: string,
    engagement: Engagement)

  /** The latest appointment: the last row, None when there is none. With
      the rows in ascending date order it carries the greatest date. */
  function Latest(appts: seq<Appointment>): (r: Option<Appointment>)
    ensures r.None? <==> |appts| == 0
    ensures r.Some? ==> r.value in appts && r.value == appts[|appts| - 1]
    ensures r.Some? && SortedByDate(appts) ==> forall a :: a in appts ==> TextLe(a.date, r.value.date)
  {
    if |appts| == 0 then None
    else
      var last := appts[|appts| - 1];
      assert SortedByDate(appts) ==> forall a :: a in appts ==> TextLe(a.date, last.date) by {
        if SortedByDate(appts) {
          TextLeTotal(last.date, last.date);
          forall a | a in appts
            ensures TextLe(a.date, last.date)
          {
            var i :| 0 <= i < |appts| && appts[i] == a;
            if i < |appts| - 1 {
              assert TextLe(appts[i].date, appts[|appts| - 1].date);
            }
          }
        }
      }
      Some(last)
  }

  /** `latestAppointment?.medications || 'None documented'`: the latest
      appointment's medications when there is one and they are non-empty. */
  function CurrentMedications(appts: seq<Appointment>): (m: string)
    ensures m != ""
    ensures m == NoneDocumented <==>
      |appts| == 0 || Latest(appts).value.medications in {"", NoneDocumented}
    ensures m != NoneDocumented ==> m == Latest(appts).value.medications
  {
    match Latest(appts)
    case None => NoneDocumented
    case Some(a) => if a.medications == "" then NoneDocumented else a.medications
  }

  /** `latestAppointment?.date || 'No recent visits'`. */
  function LastVisit(appts: seq<Appointment>): (d: string)
    ensures d != ""
    ensures d == NoRecentVisits <==>
      |appts| == 0 || Latest(appts).value.date in {"", NoRecentVisits}
    ensures d != NoRecentVisits ==> d == Latest(appts).value.date
  {
    match Latest(appts)
    case None => NoRecentVisits
    case Some(a) => if a.date == "" then NoRecentVisits else a.date
  }

  /** `appts.map(a => a.allergies)`. */
  function Allergies(appts: seq<Appointment>): (r: seq<string>)
    ensures |r| == |appts|
    ensures forall i :: 0 <= i < |appts| ==> r[i] == appts[i].allergies
  {
    seq(|appts|, i requires 0 <= i < |appts| => appts[i].allergies)
  }

  predicate NoDuplicates(r: seq<string>) {
    forall i, j :: 0 <= i < j < |r| ==> r[i] != r[j]
  }

  /** The position of the first occurrence of `s` in `xs`. */
  function IndexOf(xs: seq<string>, s: string): (k: nat)
    requires s in xs
    ensures k < |xs| && xs[k] == s
    ensures forall j :: 0 <= j < k ==> xs[j] != s
  {
    if xs[0] == s then 0 else 1 + IndexOf(xs[1..], s)
  }

  /** Appending to a list does not move the first occurrence of a string
      already in it. */
  lemma IndexOfPrefix(xs: seq<string>, s: string)
    requires |xs| > 0 && s in xs[..|xs| - 1]
    ensures IndexOf(xs, s) == IndexOf(xs[..|xs| - 1], s)
  {
    var k := IndexOf(xs[..|xs| - 1], s);
    var m := IndexOf(xs, s);
    assert xs[k] == s;
  }

  /** `r` lists its strings in the order they first occur in `xs`. */
  predicate FirstSeenOrder(xs: seq<string>, r: seq<string>)
    requires forall s :: s in r ==> s in xs
  {
    forall i, j :: 0 <= i < j < |r| ==> IndexOf(xs, r[i]) < IndexOf(xs, r[j])
  }

  /** `[...new Set(xs.filter(Boolean))]`: each non-empty string once, in
      first-seen order. */
  function Distinct(xs: seq<string>): (r: seq<string>)
    ensures forall s :: s in r <==> s in xs && s != ""
    ensures NoDuplicates(r)
    ensures FirstSeenOrder(xs, r)
  {
    if |xs| == 0 then []
    else
      var front := xs[..|xs| - 1];
      var r := Distinct(front);
      var x := xs[|xs| - 1];
      assert xs == front + [x];
      forall s | s in r
        ensures IndexOf(xs, s) == IndexOf(front, s)
      {
        IndexOfPrefix(xs, s);
      }
      if x == "" || x in r then r
      else
        assert x !in front;
        assert IndexOf(xs, x) == |xs| - 1;
        r + [x]
  }

  lemma {:induction false} JoinNonEmpty(parts: seq<string>, sep: string)
    requires |parts| > 0 && parts[0] != ""
    ensures JoinWith(parts, sep) != ""
  {
    if |parts| > 1 {
      assert JoinWith(parts, sep) == parts[0] + sep + JoinWith(parts[1..], sep);
      assert |JoinWith(parts, sep)| >= |parts[0]|;
    }
  }

  /** Some appointment names an allergy exactly when the distinct list is
      non-empty, and then its joined text is non-empty. */
  lemma AllergyListFacts(appts: seq<Appointment>)
    ensures |Distinct(Allergies(appts))| > 0 <==> exists a :: a in appts && a.allergies != ""
    ensures |Distinct(Allergies(appts))| > 0 ==> JoinWith(Distinct(Allergies(appts)), ", ") != ""
  {
    var distinct := Distinct(Allergies(appts));
    if |distinct| > 0 {
      assert distinct[0] in distinct;
      JoinNonEmpty(distinct, ", ");
      var i :| 0 <= i < |appts| && Allergies(appts)[i] == distinct[0];
      assert appts[i] in appts;
    }
    if exists a :: a in appts && a.allergies != "" {
      var a :| a in appts && a.allergies != "";
      var i :| 0 <= i < |appts| && appts[i] == a;
      assert Allergies(appts)[i] in distinct;
    }
  }

  /** The known-allergies line: the distinct non-empty allergy texts joined
      by `, `, or `None documented` when there is none. */
  function KnownAllergies(appts: seq<Appointment>): (k: string)
    ensures (forall a :: a in appts ==> a.allergies == "") ==> k == NoneDocumented
    ensures (exists a :: a in appts && a.allergies != "") ==> k == JoinWith(Distinct(Allergies(appts)), ", ")
  {
    AllergyListFacts(appts);
    var joined := JoinWith(Distinct(Allergies(appts)), ", ");
    if joined == "" then NoneDocumented else joined
  }

  /** The assessment paragraph chosen by the visit count. */
  function EngagementOf(count: nat): (e: Engagement)
    ensures e == Regular <==> count > 3
    ensures e == Intermittent <==> 1 <= count <= 3
    ensures e == Limited <==> count == 0
  {
    if count > 0 then (if count > 3 then Regular else Intermittent) else Limited
  }

  /** All fields of the summary of `patient`, given its appointments oldest
      first. */
  function Summarize(patient: Patient, appts: seq<Appointment>): Findings {
    Findings(patient.fullName, |appts|, LastVisit(appts), CurrentMedications(appts),
             KnownAllergies(appts), EngagementOf(|appts|))
  }

  /** With no appointment every field takes its fallback. */
  lemma EmptyHistory(patient: Patient)
    ensures Summarize(patient, []) ==
      Findings(patient.fullName, 0, NoRecentVisits, NoneDocumented, NoneDocumented, Limited)
  {
  }

  /** Repeating an allergy text in a later visit does not change the
      allergies line. */
  lemma RepeatedAllergy(appts: seq<Appointment>, a: Appointment)
    requires exists b :: b in appts && b.allergies == a.allergies
    ensures KnownAllergies(appts + [a]) == KnownAllergies(appts)
  {
    var xs := Allergies(appts);
    var ys := Allergies(appts + [a]);
    assert ys[..|ys| - 1] == xs;
    var b :| b in appts && b.allergies == a.allergies;
    var i :| 0 <= i < |appts| && appts[i] == b;
    assert xs[i] == a.allergies;
    if a.allergies != "" {
      assert a.allergies in Distinct(xs);
    }
    assert Distinct(ys) == Distinct(xs);
    assert forall c :: c in appts + [a] ==> c in appts || c == a;
    assert forall c :: c in appts ==> c in appts + [a];
  }
}
